=== FILE: README.md ===
# Verified model of the "Furkan İçin Umut" landing-page scripts

The charity landing page has two generations of scripts. The first site is
`assets/js/main.js` with the older translation manager `i18n.js`. The new site is
`furkan-new-site/js/i18n.js`, `furkan-new-site/js/main.js` and
`furkan-new-site/js/donations.js`. Almost all of the code wires the DOM. This project models
the parts that keep state or compute values:

- the new site's `TranslationManager`: a per-language cache with a 24-hour maximum age, the
  set of languages whose load is in flight, and the fallback to Turkish. It also covers
  dotted-key lookup, `{{name}}` interpolation, browser-language detection and the saved
  preference;
- the legacy `I18nManager`: no cache, a `'tr'` retry that swallows every error, the
  saved > browser > Turkish start-up priority, the `getTranslation` loop and the
  language-button flags;
- the first site's language switcher, slider, lightbox, swipe rules, thousands separator,
  countdown and FAQ accordion;
- the new site's progress bar, loading screen, sticky button, scroll-in animations, toast
  registry and prefixed storage helper;
- the donation manager: its copy counter, share prompt, last-copied record and TL/USD
  classification.

Each object whose fields the source updates is a `class`. Its methods are proved equal to a
pure function of the object's state (`State()`), and the promised behaviour is proved as
lemmas about those functions. The browser is abstracted as follows:

- `fetch` together with `response.ok` and `response.json()` is an oracle `string -> Option<Json>`;
- `Date.now()` is a parameter `now`;
- `localStorage` is a shared `LocalStorage` object whose calls may throw (`available`);
- `navigator.language` is an optional string;
- the clipboard is an optional copied text;
- JSON payloads are a `Json` datatype with JavaScript truthiness.

Modules:

| module | file | source |
|---|---|---|
| `Wrappers`, `Text`, `JsonModel` | wrappers.dfy, text.dfy, json.dfy | JavaScript's string methods and values |
| `Storage` | storage.dfy | `localStorage`, `Utils.storage` |
| `Interpolation` | interpolation.dfy | `interpolate` |
| `SiteI18n` | site_i18n.dfy | furkan-new-site/js/i18n.js |
| `LegacyI18n` | legacy_i18n.dfy | i18n.js |
| `LanguageSwitcher` | language_switcher.dfy | assets/js/main.js, language switcher |
| `Slider` | slider.dfy | assets/js/main.js, slider and lightbox |
| `SiteWidgets` | site_widgets.dfy | assets/js/main.js, counter, countdown, FAQ |
| `Managers` | managers.dfy | furkan-new-site/js/main.js |
| `Donations` | donations.dfy | furkan-new-site/js/donations.js |

## Model

| member | source | states |
|---|---|---|
| Storage.StorageKey | furkan-new-site/js/main.js:104-106 | the stored key is `furkan_` followed by the caller's key, which can be read back from it |
| Storage.StorageKeyInjective | furkan-new-site/js/main.js:104-124 | distinct keys never share a storage slot |
| Storage.GetAfterSet | furkan-new-site/js/main.js:104-119 | with usable storage, `get` returns what `set` wrote when the value serialises to a non-empty text that parses back |
| Storage.GetAfterSetOther | furkan-new-site/js/main.js:104-119 | `set` under one key leaves `get` of every other key unchanged |
| Storage.GetAfterRemove | furkan-new-site/js/main.js:113-127 | after `remove`, `get` answers the default value |
| Storage.GetDefault | furkan-new-site/js/main.js:112-120 | `get` answers the default when storage throws or the prefixed key is absent |
| Storage.StorageSet | furkan-new-site/js/main.js:104-110 | the page's storage afterwards equals `Set` of the old storage; a throwing `setItem` is caught and changes nothing |
| Storage.StorageRemove | furkan-new-site/js/main.js:122-128 | the page's storage afterwards equals `Remove` of the old storage |
| Interpolation.PlaceholderAt | furkan-new-site/js/i18n.js:561 | a match is `{{`, a non-empty run of word characters, then `}}`, at the start of the text |
| Interpolation.PlaceholderAtWord | furkan-new-site/js/i18n.js:561 | conversely, a text starting with `{{name}}` for a non-empty word run `name` is matched there with that name |
| Interpolation.InterpolateWithoutParams | furkan-new-site/js/i18n.js:560-563 | with no parameters, every placeholder stays verbatim and the text is unchanged |
| Interpolation.EmptyParamIsMissing | furkan-new-site/js/i18n.js:562 | an empty-string parameter acts exactly as a missing one |
| Interpolation.ReplacementIgnoresEmpty | furkan-new-site/js/i18n.js:562 | one placeholder's replacement is the same with or without empty parameters |
| Interpolation.InterpolateNoBraces | furkan-new-site/js/i18n.js:560-563 | a text without `{` comes back unchanged |
| Interpolation.InterpolateSinglePlaceholder | furkan-new-site/js/i18n.js:561-562 | `{{name}}` becomes `params[name]` when that is non-empty and stays verbatim otherwise |
| Interpolation.InterpolateLiteralPrefix | furkan-new-site/js/i18n.js:560-563 | text without `{` before a template is copied through unchanged |
| Interpolation.GreetingPattern | furkan-new-site/js/i18n.js:560-563 | `prefix{{name}}` with `name` bound to a non-empty value gives `prefix` + value, and without parameters stays verbatim |
| SiteI18n.PrimarySubtag | furkan-new-site/js/i18n.js:111 | the whole code up to the first `-` (or the end), each character lower-cased, containing no `-` |
| SiteI18n.DetectBrowserLanguage | furkan-new-site/js/i18n.js:107-123 | `en` exactly when the primary subtag starts with `en`, `de` likewise, `tr` otherwise; always a supported language |
| SiteI18n.LoadLanguagePreference | furkan-new-site/js/i18n.js:125-135 | the saved value is returned exactly when it is stored and supported; a throwing `getItem` gives none |
| SiteI18n.SaveLanguagePreference | furkan-new-site/js/i18n.js:137-143 | afterwards the preference reads back as `lang` when it is supported; no other key changes |
| SiteI18n.MissingSections | furkan-new-site/js/i18n.js:248-249 | a section is reported exactly when it is required and not truthy in the payload |
| SiteI18n.ValidateTranslations | furkan-new-site/js/i18n.js:241-254 | fails exactly for a null or non-object payload; otherwise it reports the missing sections as warnings |
| SiteI18n.FetchTranslations | furkan-new-site/js/i18n.js:218-239 | succeeds exactly when the response loads and validates, and then returns that payload |
| SiteI18n.LoadFrame | furkan-new-site/js/i18n.js:170-216 | a load never changes the current language, the initialised flag or the in-flight set; it only appends to the request log; every cached language stays listed |
| SiteI18n.LoadFromFreshCache | furkan-new-site/js/i18n.js:172-177 | an entry younger than 86400000 ms is returned without a fetch and copied into `translations[lang]` |
| SiteI18n.LoadJoinsPending | furkan-new-site/js/i18n.js:181-183 | a pending language is joined: no second fetch and no state change; the result is the pending fetch's outcome, with its data |
| SiteI18n.LoadSuccessCaches | furkan-new-site/js/i18n.js:186-215 | a successful fetch stores the table and the entry `{data, timestamp: now}`, logs one request and clears the pending entry |
| SiteI18n.LoadFailureFallsBack | furkan-new-site/js/i18n.js:203-215 | a failed non-default fetch is logged and followed by a load of the default language, and `lang` stays without a table |
| SiteI18n.LoadDefaultFailureRejects | furkan-new-site/js/i18n.js:203-215 | a failed default-language fetch rejects, leaving only the logged request |
| SiteI18n.LoadTwiceFetchesOnce | furkan-new-site/js/i18n.js:172-199 | a second load within the maximum age fetches nothing |
| SiteI18n.SwitchLanguageGuard | furkan-new-site/js/i18n.js:257-259 | `changeLanguage` for the current or an unsupported language changes nothing |
| SiteI18n.SwitchLanguageOutcome | furkan-new-site/js/i18n.js:256-302 | on a resolved load the language and the saved preference both become `lang`; on a rejected load the language is unchanged |
| SiteI18n.PageContent | furkan-new-site/js/i18n.js:321-327 | the page is updated exactly when the current language has a truthy table |
| SiteI18n.SwitchLanguageAfterFallback | furkan-new-site/js/i18n.js:262-275 | when `loadLanguage` substituted the default table (lines 207-209), `changeLanguage` still makes `lang` current; `lang` has no table, so the page update bails out (lines 322-324) |
| SiteI18n.LoadFallbackKeepsOthers | furkan-new-site/js/i18n.js:207-209 | loading the default language never adds a table for another language |
| SiteI18n.Startup | furkan-new-site/js/i18n.js:73-105 | the saved preference, else the detected language, is loaded; the manager is initialised exactly when that load resolves; a rejected load or a missing browser language leaves the default language |
| SiteI18n.StartupLanguageSupported | furkan-new-site/js/i18n.js:73-105 | after `init` the current language is one of tr, en, de |
| SiteI18n.WalkFalsyStays | furkan-new-site/js/i18n.js:373-376 | once the walk hits a falsy value, the remaining segments keep it |
| SiteI18n.WalkMatchesPath | furkan-new-site/js/i18n.js:373-376 | the reduce is truthy exactly when every segment exists in nested objects and the leaf is truthy, and then it is that leaf |
| SiteI18n.WalkUndefined | furkan-new-site/js/i18n.js:373-376 | walking from `undefined` gives `undefined` |
| SiteI18n.T | furkan-new-site/js/i18n.js:545-558 | a falsy lookup returns the key itself; a non-string truthy translation is an error |
| SiteI18n.TranslateByPath | furkan-new-site/js/i18n.js:545-558 | `t` gives the interpolated leaf string when the dotted path exists, and the key otherwise |
| SiteI18n.TranslateWithoutTable | furkan-new-site/js/i18n.js:547-550 | without a table for the current language, `t` returns the key |
| SiteI18n.Cleared | furkan-new-site/js/i18n.js:595-598 | `clearCache` empties the cache and keeps the tables, the in-flight set and the language |
| SiteI18n.LoadAfterClearFetches | furkan-new-site/js/i18n.js:595-598 | after `clearCache`, a load of a language that is not pending fetches again |
| SiteI18n.CacheStatsConsistent | furkan-new-site/js/i18n.js:601-607 | `getCacheStats` lists each cached language once, and its size equals the number listed |
| SiteI18n.TranslationManager.constructor | furkan-new-site/js/i18n.js:62-71 | Turkish, no tables, empty cache, nothing in flight, not initialised |
| SiteI18n.TranslationManager.LoadLanguage | furkan-new-site/js/i18n.js:170-216 | the new state and the result equal `Load` of the old state |
| SiteI18n.TranslationManager.ChangeLanguage | furkan-new-site/js/i18n.js:256-303 | the new state and storage equal `SwitchLanguage` of the old ones |
| SiteI18n.TranslationManager.Init | furkan-new-site/js/i18n.js:73-105 | the new state equals `Startup` of the old one |
| SiteI18n.TranslationManager.ClearCache | furkan-new-site/js/i18n.js:595-598 | the new state equals `Cleared` of the old one |
| LegacyI18n.LoadLanguageFetches | i18n.js:44-46 | there is no cache: each call logs a fetch of `lang`, and after a failure of a non-`tr` language a fetch of `tr` |
| LegacyI18n.LoadLanguageSuccess | i18n.js:46-55 | a successful load stores `translations[lang]`, makes `lang` current and saves it |
| LegacyI18n.LoadLanguageFetchFailure | i18n.js:64-71 | a failed fetch of a language other than `tr` is followed by exactly a load of `tr` |
| LegacyI18n.FallbackFailureSwallowed | i18n.js:64-71 | a failed `tr` fetch is swallowed: only the request is logged and the call resolves |
| LegacyI18n.LoadLanguagePageFailure | i18n.js:53-71 | a throw in the page update after storing the table still triggers the `tr` retry |
| LegacyI18n.InitialLanguage | i18n.js:17-27 | a supported saved value wins; otherwise `en` or `de` when the browser string starts with it; otherwise `tr` |
| LegacyI18n.InitPriority | i18n.js:14-42 | `init` loads the saved supported language; a throwing storage lands in the catch with `tr` |
| LegacyI18n.ChangeLanguageGuards | i18n.js:186-202 | nothing happens for the current language or before initialisation; otherwise exactly one load of `lang` follows |
| LegacyI18n.ChainAllSnoc | i18n.js:279-283 | the loop's walk over `parts + [k]` is one more optional-chaining step |
| LegacyI18n.ChainAllUndefined | i18n.js:279-283 | optional chaining from `undefined` stays `undefined` |
| LegacyI18n.ChainAgreesWithReduce | i18n.js:276-285 | the legacy optional-chaining loop and the new site's reduce agree on every truthy result |
| LegacyI18n.GetTranslationMatchesNewSite | i18n.js:276-285 | `getTranslation` answers what `t` answers without parameters |
| LegacyI18n.I18nManager.constructor | i18n.js:7-12 | Turkish, no tables, not initialised |
| LegacyI18n.I18nManager.LoadLanguage | i18n.js:44-72 | the new state and storage equal `Load` of the old ones |
| LegacyI18n.I18nManager.Init | i18n.js:14-42 | the new state and storage equal `Startup` of the old ones |
| LegacyI18n.I18nManager.ChangeLanguage | i18n.js:186-202 | the new state and storage equal `SwitchLanguage` of the old ones |
| LegacyI18n.I18nManager.GetTranslation | i18n.js:276-285 | the loop's result is the optional-chaining walk over the dotted key, or the key itself when that is falsy |
| LegacyI18n.I18nManager.UpdateLanguageButtons | i18n.js:153-165 | afterwards exactly the buttons whose `data-lang` is the current language are active |
| LanguageSwitcher.LoadFile | assets/js/main.js:104-124 | a truthy cached table is returned without a fetch; otherwise the load succeeds exactly when fetch exists and answers, returning and caching that table; a failure caches nothing; other entries stay |
| LanguageSwitcher.LoadLanguageFileFetches | assets/js/main.js:104-115 | a fetch is logged exactly when the cache cannot answer and the fetch API exists |
| LanguageSwitcher.LoadLanguageFileTwice | assets/js/main.js:104-123 | a second load of a file that loaded as a truthy table is answered from the cache |
| LanguageSwitcher.SetLanguageUnsupported | assets/js/main.js:126-127 | an unsupported code changes nothing |
| LanguageSwitcher.SetLanguageOnlyOnSuccess | assets/js/main.js:126-168 | the language and table change only after a successful load, and then to `lang` and its table, which is saved |
| LanguageSwitcher.SetLanguageKeepsCache | assets/js/main.js:104-168 | the cache only grows, and truthy entries keep their table |
| LanguageSwitcher.BrowserLang | assets/js/main.js:84 | the whole part of `navigator.language` before its first `-` (or all of it), or `tr` when it is empty |
| LanguageSwitcher.InitialLang | assets/js/main.js:86-90 | a supported saved value wins, then a supported browser code, and otherwise exactly the current language |
| LanguageSwitcher.InitLanguageSupported | assets/js/main.js:69-101 | from the initial state, the language after start-up is supported |
| LanguageSwitcher.SwitcherState.constructor | assets/js/main.js:69-74 | Turkish, empty translations, an empty cache |
| LanguageSwitcher.SwitcherState.LoadLanguageFile | assets/js/main.js:104-124 | the new state and result equal `LoadFile` of the old state |
| LanguageSwitcher.SwitcherState.SetLanguage | assets/js/main.js:126-168 | the new state and storage equal `ApplyLanguage` of the old ones |
| LanguageSwitcher.SwitcherState.InitLanguageSwitcher | assets/js/main.js:76-101 | the new state and storage equal `Startup` of the old ones |
| Slider.JsRem | assets/js/main.js:305 | JavaScript's truncating `%`: for a non-negative operand it agrees with the modulus and lies in `[0, n)` |
| Slider.ChangeSlideWraps | assets/js/main.js:303-308 | `changeSlide(±1)` stays in `[0, n)` and wraps from the last slide to the first and back |
| Slider.MediaSlider.constructor | assets/js/main.js:221-250 | slide 0 is current and only its dot is active |
| Slider.MediaSlider.GoToSlide | assets/js/main.js:310-337 | an out-of-range index changes nothing; otherwise it becomes current and exactly its dot is active |
| Slider.MediaSlider.ChangeSlide | assets/js/main.js:303-308 | the target `(i + d + n) % n` is never past the last slide; a non-negative target becomes current with exactly its dot active; a negative one changes nothing; ±1 wraps |
| Slider.SwipeDecision | assets/js/main.js:288-301 | a slide changes only when `abs(diffX) > 50` and `abs(diffX) > abs(diffY)`; next when `diffX > 0`, previous otherwise |
| Slider.SwipeReversed | assets/js/main.js:288-301 | reversing a swipe reverses the decision |
| Slider.PrevIndex | assets/js/main.js:900-903 | `NaN` results exactly for an empty gallery or a `NaN` index |
| Slider.NextIndex | assets/js/main.js:905-908 | `NaN` results exactly for an empty gallery or a `NaN` index |
| Slider.LightboxArrowsWrap | assets/js/main.js:900-908 | prev and next stay in `[0, count)`, undo each other, and wrap at both ends |
| Slider.ArrowSteps | assets/js/main.js:900-908 | prev and next are one step down and up, wrapping |
| Slider.ShowMedia | assets/js/main.js:856-897 | an out-of-range index changes nothing; `NaN` is stored and throws; a valid index becomes current, with the arrows shown exactly for more than one item and the controls hidden; the open flag and touch state are kept |
| Slider.ArrowMoveShows | assets/js/main.js:900-908 | from an index in range an arrow move never throws, lands in range, keeps the lightbox open and hides the controls |
| Slider.Lightbox.constructor | assets/js/main.js:803 | index 0, arrows and controls hidden, closed, touch variables at zero |
| Slider.Lightbox.ShowLightboxMedia | assets/js/main.js:856-897 | the new state and the throw equal `ShowMedia` |
| Slider.Lightbox.LightboxPrev | assets/js/main.js:900-903 | the new state equals `ShowMedia` of `(i - 1 + n) % n`: one item back, wrapping, in range; `NaN` for an empty gallery |
| Slider.Lightbox.LightboxNext | assets/js/main.js:905-908 | the new state equals `ShowMedia` of `(i + 1) % n`: one item on, wrapping, in range; `NaN` for an empty gallery |
| Slider.Lightbox.Open | assets/js/main.js:918-931 | the clicked index is stored even past the item list, the lightbox opens and the controls are hidden; the arrows change only for an index in range |
| Slider.Lightbox.ArrowClick | assets/js/main.js:953-967 | the arrow's move, then the controls shown unless the move threw |
| Slider.Lightbox.Close | assets/js/main.js:969-979 | the lightbox and its controls are hidden and everything else stays |
| Slider.Lightbox.ToggleControls | assets/js/main.js:1066-1082 | the controls flip and nothing else changes |
| Slider.Lightbox.KeyDown | assets/js/main.js:992-1004 | nothing while closed; Escape closes; the left and right arrows move back and on |
| Slider.Lightbox.TouchStart | assets/js/main.js:1012-1017 | while open, the start point is recorded and the swipe flag cleared |
| Slider.Lightbox.TouchMove | assets/js/main.js:1019-1028 | while open, the swipe flag becomes `TouchMoveSwiping` of the move |
| Slider.Lightbox.TouchEnd | assets/js/main.js:1030-1052 | while open, a `LightboxSwipe` decision moves back or on, and the flag is cleared unless the move threw |
| Slider.LightboxSwipe | assets/js/main.js:1030-1051 | a swipe acts only while swiping, above 30 pixels and mostly horizontal; to the right is previous |
| Slider.TouchMoveSwiping | assets/js/main.js:1019-1028 | the gesture is a swipe afterwards exactly when it was one or the move is mostly horizontal and longer than 10 pixels |
| Slider.SliderSwipeIsLightboxSwipe | assets/js/main.js:1030-1051 | every swipe the slider acts on, the lightbox reads the same way |
| SiteWidgets.FormatIsGrouping | assets/js/main.js:692 | the regular-expression replace equals grouping the digits in threes from the right |
| SiteWidgets.RemoveDotsGrouped | assets/js/main.js:692 | deleting the dots from a grouped digit string gives the digits back |
| SiteWidgets.CounterTextReadsBack | assets/js/main.js:692-693 | the final counter text is `$` followed by digits that read back as the target |
| SiteWidgets.Distance | assets/js/main.js:1227-1239 | the two three-hour shifts cancel: the distance is the event time minus now |
| SiteWidgets.Decompose | assets/js/main.js:1249-1251 | hours below 24 and minutes below 60; together the parts account for the distance to within a minute |
| SiteWidgets.FieldReadsBack | assets/js/main.js:1253-1255 | `padStart(2, '0')` gives at least two digits that read back as the value, exactly two below 100 |
| SiteWidgets.CountdownFields | assets/js/main.js:1235-1256 | all fields are `00` after the event; before it, the fields are two-digit hours and minutes and the days, all reading back to the decomposition; the result depends only on the time left |
| SiteWidgets.Toggled | assets/js/main.js:1100-1121 | the clicked item flips, every other item is closed, so at most one item is open |
| SiteWidgets.ToggleTwice | assets/js/main.js:1100-1121 | clicking the same item twice restores a state in which only it, or nothing, was open |
| SiteWidgets.ToggleFaq | assets/js/main.js:1100-1121 | the array afterwards equals `Toggled` of the array before |
| Managers.Clamp | furkan-new-site/js/main.js:279 | the result lies in `[0, 100]`, equals the input inside that range and the nearer bound outside it |
| Managers.ComputeStats | furkan-new-site/js/main.js:237-239 | collected plus remaining is the goal |
| Managers.StatsBounds | furkan-new-site/js/main.js:237-239 | for a percentage in range both amounts lie within the goal, and the collected amount grows with the percentage |
| Managers.StartAnimation | furkan-new-site/js/main.js:169-184 | nothing new starts while an animation runs; otherwise one starts |
| Managers.SetPercentage | furkan-new-site/js/main.js:278-281 | the stored percentage is `Clamp(v)`, in `[0, 100]`; an animation is running afterwards, a new one started exactly when none was |
| Managers.AnimationOnceAtATime | furkan-new-site/js/main.js:169-207 | a second start during an animation does nothing; after the last frame the next start runs |
| Managers.FinishAnimation | furkan-new-site/js/main.js:203-207 | the last frame clears the guard, keeping the percentage and the run count |
| Managers.ProgressManager.constructor | furkan-new-site/js/main.js:134-167 | 60 percent; an animation starts only when the bar, its fill and the text are all found; with the bar and fill but no text, setup fails before any animation |
| Managers.ProgressManager.AnimateProgress | furkan-new-site/js/main.js:169-184 | the new state equals `StartAnimation` of the old one |
| Managers.ProgressManager.AnimationDone | furkan-new-site/js/main.js:205-207 | the guard is cleared and nothing else changes |
| Managers.ProgressManager.UpdatePercentage | furkan-new-site/js/main.js:278-281 | the new state equals `SetPercentage` of the old one |
| Managers.ProgressManager.UpdateStats | furkan-new-site/js/main.js:237-252 | the two amounts shown add up to the goal 2899907 |
| Managers.Hide | furkan-new-site/js/main.js:307-320 | `isLoaded` is set, and the screen is hidden only by the first call and only when it exists |
| Managers.HideLoadingIdempotent | furkan-new-site/js/main.js:307-310 | a second `hideLoading` changes nothing |
| Managers.LoadingManager.HideLoading | furkan-new-site/js/main.js:307-320 | the new state equals `Hide` of the old one |
| Managers.LoadingManager.Fallback | furkan-new-site/js/main.js:298-303 | the three-second fallback has the same effect as `hideLoading` |
| Managers.LoadingManager.constructor | furkan-new-site/js/main.js:286-291 | not loaded and not hidden, with the screen's presence recorded |
| Managers.Scrolled | furkan-new-site/js/main.js:349-365 | at or below 300 the button hides; above 300 it shows exactly when the page did not scroll down; the last position is recorded |
| Managers.HandleScrollForgetsVisibility | furkan-new-site/js/main.js:349-365 | the outcome depends only on the previous and the new position |
| Managers.HandleScrollSettles | furkan-new-site/js/main.js:351-359 | a second event at the same position above 300 shows the button |
| Managers.ScrollManager.HandleScroll | furkan-new-site/js/main.js:349-365 | the new state equals `Scrolled` of the old one |
| Managers.ScrollManager.constructor | furkan-new-site/js/main.js:325-331 | position 0, not scrolling down, button hidden |
| Managers.ScrollManager.ShowStickyButton | furkan-new-site/js/main.js:343-346 | the two-second timer shows the button and changes nothing else |
| Managers.Animate | furkan-new-site/js/main.js:424-440 | an element animates once; its delay is its sibling index times 100 ms; other elements keep theirs |
| Managers.AnimateElementOnce | furkan-new-site/js/main.js:424-427 | later intersections of an animated element change nothing |
| Managers.AnimateElementKeepsDelays | furkan-new-site/js/main.js:424-440 | every animated element keeps a recorded delay |
| Managers.AnimationManager.AnimateElement | furkan-new-site/js/main.js:424-440 | the new state equals `Animate` of the old one |
| Managers.AnimationManager.constructor | furkan-new-site/js/main.js:378-383 | nothing animated and no delays recorded |
| Managers.ShowToast | furkan-new-site/js/main.js:455-473 | the id is registered with its toast, and every other toast stays |
| Managers.HideToast | furkan-new-site/js/main.js:485-498 | an unknown id is ignored; a known one is deleted and every other toast stays |
| Managers.ShowThenHide | furkan-new-site/js/main.js:455-498 | showing under a fresh id grows the registry by one, and hiding it restores the registry |
| Managers.ToastManager.Show | furkan-new-site/js/main.js:455-473 | the registry equals `ShowToast` of the old one; the id is returned when the container exists, and without it the toast stays registered and nothing is returned |
| Managers.ToastManager.constructor | furkan-new-site/js/main.js:445-453 | an empty registry; a missing container is only recorded |
| Managers.ToastManager.Hide | furkan-new-site/js/main.js:485-498 | the registry equals `HideToast` of the old one |
| Donations.Classify | furkan-new-site/js/donations.js:295 | TL exactly when the element id contains `tl`, USD otherwise |
| Donations.IsPrimary | furkan-new-site/js/donations.js:660 | only the TL account is primary (`isPrimary` is true for TL at line 18 and false for USD at line 26) |
| Donations.ModalIbanIsUsd | furkan-new-site/js/donations.js:361-362 | a copy from the quick-donate modal (`modalIban`), which shows the TL account, is reported as USD and not primary |
| Donations.TrackCopyEvent | furkan-new-site/js/donations.js:658-667 | the event's type is the classification, it is primary exactly for TL, and `copy_count` is the count plus one |
| Donations.UpdateLastCopied | furkan-new-site/js/donations.js:625-632 | the record `{id, text, timestamp: now}` is kept in memory and written under `lastCopiedIban` |
| Donations.Copy | furkan-new-site/js/donations.js:211-251 | a failure changes nothing; a success records the copy, adds exactly one to the count, reports the tracked count equal to the new count, and prompts exactly when the count becomes 2 |
| Donations.LoadLastCopied | furkan-new-site/js/donations.js:634-641 | the count is untouched; a record is adopted only while younger than 86400000 ms |
| Donations.CopyThenLoad | furkan-new-site/js/donations.js:625-641 | a copied record is read back by a later load exactly while it is under a day old |
| Donations.NoPromptAfterTwo | furkan-new-site/js/donations.js:241-245 | once two copies are counted, no further prompt comes |
| Donations.SharePromptAtMostOnce | furkan-new-site/js/donations.js:236-245 | any run of copies schedules the share prompt at most once |
| Donations.SecondCopyPrompts | furkan-new-site/js/donations.js:236-245 | a fresh manager prompts on its second successful copy |
| Donations.DonationManager.constructor | furkan-new-site/js/donations.js:53-60 | zero copies and no record, then the saved record loaded |
| Donations.DonationManager.UpdateLastCopiedIban | furkan-new-site/js/donations.js:625-632 | the new state and storage equal `UpdateLastCopied` of the old ones |
| Donations.DonationManager.LoadLastCopiedIban | furkan-new-site/js/donations.js:634-641 | the new state equals `LoadLastCopied` of the old one |
| Donations.DonationManager.CopyIban | furkan-new-site/js/donations.js:211-251 | the new state, storage and report equal `Copy` of the old ones |

## Left out

- DOM rendering is not modelled, since it is presentation. This covers `applyTranslations`,
  `updateElement`, `updateAriaAttributes`, `updateMetaTags`, `batchUpdateElements`, the
  new-site `updateLanguageButtons`, the first site's `updateActiveLangButton`, and the markup
  of modals, toasts, ripples and loading indicators. The legacy `updatePageContent` is only
  whether it throws: a nullish section always makes it throw (`PageUpdateThrows`); a leaf
  that is not a string while its element is on the page is an oracle over the table
  (`PageOracle`). Once the sections exist, `updateProgressBar` and `updateIBANButtons`
  cannot throw.
- Timers, animation frames, `Utils.debounce` and `Utils.throttle` are not modelled. A callback
  that a timer would run is a separate method: `AnimationDone`, `Fallback` and
  `ShowStickyButton`. Auto-hide toasts and the share prompt's two-second delay are not modelled.
- Float animation and easing are not modelled: `animateCounter`'s intermediate values, the
  progress fill and text animations, and the parallax.
  - The counter models only its final text, for a non-negative integer target.
  - `parseFloat` of a fractional or `NaN` target is not modelled.
  - Percentages, amounts and scroll positions are exact reals: there is no float rounding and
    no `NaN`.
- `Utils.formatCurrency`, `formatNumber`, `generateId`, the `IntersectionObserver` set-ups and
  `isInViewport` are not modelled. They are library or browser behaviour. A toast's id is a
  parameter.
- `fetch`, `response.json()`, the clipboard, `navigator.share`, `gtag` and vibration are
  oracles or left out. The new site's loading map is a set of languages in flight. Promise
  interleavings are not modelled: a joined load gets the pending fetch's own outcome, and one
  `now` is used for a fetch's start and its settling.
- Property access on non-objects is simplified. Indexing a string or an array, and names
  inherited from `Object.prototype`, give `undefined`. The same holds for `interpolate`'s
  parameters: a placeholder such as `{{constructor}}` with no such parameter stays verbatim
  here, while `params[key]` finds the inherited function and inserts its text.
- `ToLower` folds ASCII letters only.
- `interpolate`'s parameters are strings. A number parameter would be stringified, and `0`
  would keep the placeholder. No caller in the site passes numbers.
- The lightbox's media element updates (image and video sources, `play`, `pause`), the body's
  scroll lock and `preventDefault` are not modelled. Both media click handlers are `Open`.
- `handleSwipe` is a function of the four coordinates. As written, it reads `touchStartX` and
  `touchEndX`, which are locals of `initSlider` (assets/js/main.js:252-255), so it cannot see
  them.
- The new site's `loadLanguage` does not reject an unsupported language before I/O. It fetches
  an undefined path, fails and falls back to Turkish, and the model follows the code here.
  `changeLanguage` shows a toast for a failure instead of rethrowing it.
- Managers.ProgressManager.constructor: the throw of `setupProgressBar` is the `setupFailed`
  flag. That the same throw aborts the start-up block, so that no other manager is built, is
  not modelled; each manager is constructed on its own.
- Managers.HideToast: folds the 300 ms removal timer into `hide`. The `show` class removal is
  not modelled, and neither are the `success`, `error` and `info` shorthands (fixed durations).
- Donations.Copy: a DOM exception in `showCopySuccess` (a copy button without its inner
  elements) is not modelled. That exception would reach the catch after the clipboard write.
  `window.FurkanApp.Utils` is taken as present, as `furkan-new-site/js/main.js` defines it on
  load. The toast text is not modelled, only its TL or USD type.
- SiteI18n.Startup: requires an uninitialised manager, since `init` runs only from the
  constructor. A thrown `updatePageContent` (DOM) is not modelled. The browser language is
  the value of `navigator.language || navigator.userLanguage`, `None` when that is
  `undefined`. An empty `navigator.language` with no `userLanguage` throws in `split`, as
  `None` does.
- Storage is usable or unusable as a whole (`available`). A `setItem` that fails alone, on a
  full quota, while `getItem` still works, is not modelled.
- quick-donate.js and furkan-new-site/js/animations.js are not part of this model. They are
  modal, clipboard and observer plumbing. The once-only set in animations.js repeats
  `AnimationManager`.

=== FILE: donations.dfy ===
/** The new site's donation manager (furkan-new-site/js/donations.js): the IBAN copy counter
    with its one-time share prompt, the last-copied record kept for a day in storage, and the
    TL/USD classification shown in the toast and sent with the analytics event.

    The clipboard is an oracle: `copied` is the trimmed IBAN text when the element exists and
    the copy succeeded, `None` when `copyIban` reaches its catch. `Date.now()` is `now`. */
module Donations {
  import opened Wrappers
  import opened Text
  import opened Storage

  /** Twenty-four hours in milliseconds. */
  const RecordLifetime: int := 86400000
  /** The `Utils.storage` key of the last copied IBAN. */
  const LastCopiedKey: string := "lastCopiedIban"
  /** The copy that schedules the share prompt. */
  const SharePromptAt: nat := 2

  datatype IbanType = TL | USD

  /** `ibanId.includes('tl') ? 'TL' : 'USD'`. */
  function Classify(ibanId: string): (t: IbanType)
    ensures t == TL <==> Contains(ibanId, "tl")
  {
    if Contains(ibanId, "tl") then TL else USD
  }

  /** `DONATION_CONFIG.ibans[type.toLowerCase()]?.isPrimary || false`: the TL account is the
      primary one, the USD account is not. */
  function IsPrimary(t: IbanType): (primary: bool)
    ensures primary <==> t == TL
  {
    match t
    case TL => true
    case USD => false
  }

  /** The quick-donate modal that `showPrimaryIbanModal` builds always shows the TL account,
      but its copy button copies the element `modalIban`, whose id has no "tl" in it: that copy
      of the TL account is reported as USD and not primary. */
  lemma ModalIbanIsUsd()
    ensures Classify("modalIban") == USD && !IsPrimary(Classify("modalIban"))
  {
    MissingFirstChar("modalIban", "tl");
  }

  /** `{ id, text, timestamp }`. */
  datatype CopyRecord = CopyRecord(id: string, text: string, timestamp: int)

  /** The manager's `copyCount` and `lastCopiedIban` (`null` is `None`). */
  datatype Donation = Donation(copyCount: nat, lastCopied: Option<CopyRecord>)

  const Initial: Donation := Donation(0, None)

  /** The properties `trackCopyEvent` sends with `iban_copied`. */
  datatype CopyEvent = CopyEvent(ibanType: IbanType, isPrimary: bool, copyCount: nat)

  /** What a copy attempt shows: the success toast's type, the analytics event and whether the
      share prompt is scheduled; or the error toast. */
  datatype CopyReport = Copied(ibanType: IbanType, event: CopyEvent, sharePrompt: bool) | CopyFailed

  /** `trackCopyEvent(ibanId)`, read before `copyCount++`. */
  function TrackCopyEvent(d: Donation, ibanId: string): (e: CopyEvent)
    ensures e.ibanType == Classify(ibanId) && (e.isPrimary <==> e.ibanType == TL)
    ensures e.copyCount == d.copyCount + 1
  {
    var t := Classify(ibanId);
    CopyEvent(t, IsPrimary(t), d.copyCount + 1)
  }

  /** `updateLastCopiedIban(ibanId, ibanText)`: the record in memory and in storage. */
  function UpdateLastCopied(d: Donation, area: StorageArea, codec: Codec<Option<CopyRecord>>,
                            ibanId: string, text: string, now: int): (r: (Donation, StorageArea))
    ensures r.0 == d.(lastCopied := Some(CopyRecord(ibanId, text, now)))
    ensures r.1 == Set(area, codec, LastCopiedKey, r.0.lastCopied)
  {
    var record := Some(CopyRecord(ibanId, text, now));
    (d.(lastCopied := record), Set(area, codec, LastCopiedKey, record))
  }

  /** `copyIban(ibanId)`. The report gives what would be shown; the toasts and the share
      prompt actually appear only once `waitForToastManager` has found the page's toast
      manager. */
  function Copy(d: Donation, area: StorageArea, codec: Codec<Option<CopyRecord>>,
                    ibanId: string, copied: Option<string>, now: int): (r: (Donation, StorageArea, CopyReport))
    ensures copied.None? ==> r == (d, area, CopyFailed)
    ensures copied.Some? ==>
      r.0 == Donation(d.copyCount + 1, Some(CopyRecord(ibanId, copied.value, now))) &&
      r.2.Copied? && r.2.ibanType == Classify(ibanId) && r.2.event.copyCount == r.0.copyCount &&
      (r.2.sharePrompt <==> r.0.copyCount == SharePromptAt)
  {
    match copied
    case None => (d, area, CopyFailed)
    case Some(text) =>
      var (updated, area') := UpdateLastCopied(d, area, codec, ibanId, text, now);
      var event := TrackCopyEvent(d, ibanId);
      var counted := updated.(copyCount := d.copyCount + 1);
      (counted, area', Copied(Classify(ibanId), event, counted.copyCount == SharePromptAt))
  }

  /** `loadLastCopiedIban()`: a saved record is adopted only while it is younger than a day. */
  function LoadLastCopied(d: Donation, area: StorageArea, codec: Codec<Option<CopyRecord>>, now: int): (r: Donation)
    ensures r.copyCount == d.copyCount
    ensures r.lastCopied != d.lastCopied ==>
      r.lastCopied.Some? && now - r.lastCopied.value.timestamp < RecordLifetime
  {
    match Get(area, codec, LastCopiedKey, None)
    case Some(saved) =>
      if now - saved.timestamp < RecordLifetime then d.(lastCopied := Some(saved)) else d
    case None => d
  }

  /** A copy stores a record that a later load at time `later` adopts exactly while it is under
      a day old, when storage works and the record survives serialisation. */
  lemma CopyThenLoad(d: Donation, area: StorageArea, codec: Codec<Option<CopyRecord>>,
                     ibanId: string, text: string, now: int, later: int, other: Donation)
    requires area.available && RoundTrips(codec, Some(CopyRecord(ibanId, text, now)))
    ensures var area' := Copy(d, area, codec, ibanId, Some(text), now).1;
      LoadLastCopied(other, area', codec, later).lastCopied ==
        if later - now < RecordLifetime then Some(CopyRecord(ibanId, text, now)) else other.lastCopied
  {
    GetAfterSet(area, codec, LastCopiedKey, Some(CopyRecord(ibanId, text, now)), None);
  }

  /** The outcomes of a run of copy attempts, from a given state. */
  datatype Attempt = Attempt(ibanId: string, copied: Option<string>, now: int)

  /** The number of share prompts a run of copy attempts schedules. */
  function SharePrompts(d: Donation, area: StorageArea, codec: Codec<Option<CopyRecord>>, attempts: seq<Attempt>): nat
    decreases |attempts|
  {
    if attempts == [] then 0
    else
      var a := attempts[0];
      var (d', area', report) := Copy(d, area, codec, a.ibanId, a.copied, a.now);
      (if report.Copied? && report.sharePrompt then 1 else 0) + SharePrompts(d', area', codec, attempts[1..])
  }

  /** Once two copies have been counted no further prompt comes. */
  lemma {:induction false} NoPromptAfterTwo(d: Donation, area: StorageArea, codec: Codec<Option<CopyRecord>>, attempts: seq<Attempt>)
    requires d.copyCount >= SharePromptAt
    ensures SharePrompts(d, area, codec, attempts) == 0
    decreases |attempts|
  {
    if attempts != [] {
      var a := attempts[0];
      var (d', area', _) := Copy(d, area, codec, a.ibanId, a.copied, a.now);
      NoPromptAfterTwo(d', area', codec, attempts[1..]);
    }
  }

  /** The share prompt is scheduled at most once per manager, since the counter only grows. */
  lemma {:induction false} SharePromptAtMostOnce(d: Donation, area: StorageArea, codec: Codec<Option<CopyRecord>>, attempts: seq<Attempt>)
    ensures SharePrompts(d, area, codec, attempts) <= 1
    decreases |attempts|
  {
    if attempts != [] {
      var a := attempts[0];
      var (d', area', report) := Copy(d, area, codec, a.ibanId, a.copied, a.now);
      if report.Copied? && report.sharePrompt {
        NoPromptAfterTwo(d', area', codec, attempts[1..]);
      } else {
        SharePromptAtMostOnce(d', area', codec, attempts[1..]);
      }
    }
  }

  /** A manager that starts at zero schedules the prompt exactly when a second copy succeeds:
      two successful copies in a row from a fresh manager schedule it. */
  lemma SecondCopyPrompts(area: StorageArea, codec: Codec<Option<CopyRecord>>, a: Attempt, b: Attempt)
    requires a.copied.Some? && b.copied.Some?
    ensures SharePrompts(Initial, area, codec, [a, b]) == 1
  {
    var (d1, area1, r1) := Copy(Initial, area, codec, a.ibanId, a.copied, a.now);
    var (d2, area2, r2) := Copy(d1, area1, codec, b.ibanId, b.copied, b.now);
    assert [a, b][1..] == [b];
    assert SharePrompts(d2, area2, codec, [b][1..]) == 0;
  }

  class DonationManager {
    var copyCount: nat
    var lastCopiedIban: Option<CopyRecord>

    function State(): Donation
      reads this
    {
      Donation(copyCount, lastCopiedIban)
    }

    /** `new DonationManager()`: zero copies and no record, then `init` loads the saved one. */
    constructor (storage: LocalStorage, codec: Codec<Option<CopyRecord>>, now: int)
      ensures State() == LoadLastCopied(Initial, storage.Area(), codec, now)
    {
      copyCount := 0;
      lastCopiedIban := None;
      new;
      LoadLastCopiedIban(storage, codec, now);
    }

    method UpdateLastCopiedIban(ibanId: string, text: string, now: int,
                                storage: LocalStorage, codec: Codec<Option<CopyRecord>>)
      modifies this, storage
      ensures (State(), storage.Area()) ==
              UpdateLastCopied(old(State()), old(storage.Area()), codec, ibanId, text, now)
    {
      lastCopiedIban := Some(CopyRecord(ibanId, text, now));
      StorageSet(storage, codec, LastCopiedKey, lastCopiedIban);
    }

    method LoadLastCopiedIban(storage: LocalStorage, codec: Codec<Option<CopyRecord>>, now: int)
      modifies this
      ensures State() == LoadLastCopied(old(State()), storage.Area(), codec, now)
    {
      var saved := Get(storage.Area(), codec, LastCopiedKey, None);
      if saved.Some? && now - saved.value.timestamp < RecordLifetime {
        lastCopiedIban := saved;
      }
    }

    method CopyIban(ibanId: string, copied: Option<string>, now: int,
                    storage: LocalStorage, codec: Codec<Option<CopyRecord>>) returns (report: CopyReport)
      modifies this, storage
      ensures (State(), storage.Area(), report) ==
              Copy(old(State()), old(storage.Area()), codec, ibanId, copied, now)
    {
      if copied.None? {
        return CopyFailed;
      }
      var text := copied.value;
      UpdateLastCopiedIban(ibanId, text, now, storage, codec);
      var event := TrackCopyEvent(State(), ibanId);
      copyCount := copyCount + 1;
      report := Copied(Classify(ibanId), event, copyCount == SharePromptAt);
    }
  }
}

=== FILE: interpolation.dfy ===
/** `{{name}}` template interpolation: the global `replace` of `/\{\{(\w+)\}\}/g`
    with a callback answering `params[name] || match` (furkan-new-site/js/i18n.js). */
module Interpolation {
  import opened Wrappers

  /** The regular-expression class `\w`. */
  predicate IsWordChar(c: char) {
    ('a' <= c <= 'z') || ('A' <= c <= 'Z') || ('0' <= c <= '9') || c == '_'
  }

  /** The length of the run of `\w` characters that `s` starts with (what greedy `\w+` takes). */
  function WordRun(s: string): (n: nat)
    ensures n <= |s|
    ensures forall i | 0 <= i < n :: IsWordChar(s[i])
    ensures n < |s| ==> !IsWordChar(s[n])
    decreases |s|
  {
    if |s| > 0 && IsWordChar(s[0]) then 1 + WordRun(s[1..]) else 0
  }

  /** The placeholder name when `s` starts with `{{name}}` for a non-empty `\w` name. Since `}`
      is not a word character, the greedy run of word characters is the only candidate name. */
  function PlaceholderAt(s: string): (r: Option<string>)
    ensures r.Some? ==> |r.value| >= 1 && |r.value| + 4 <= |s|
    ensures r.Some? ==> s[..|r.value| + 4] == "{{" + r.value + "}}"
    ensures r.Some? ==> forall i | 0 <= i < |r.value| :: IsWordChar(r.value[i])
  {
    if |s| >= 2 && s[0] == '{' && s[1] == '{' then
      var n := WordRun(s[2..]);
      if n > 0 && n + 4 <= |s| && s[n + 2] == '}' && s[n + 3] == '}' then
        assert s[..n + 4] == "{{" + s[2..n + 2] + "}}";
        Some(s[2..n + 2])
      else None
    else None
  }

  /** The callback's answer for one placeholder: the parameter when it is truthy, that is,
      present and not the empty string; otherwise the placeholder itself, verbatim. */
  function Replacement(name: string, params: map<string, string>): string {
    if name in params && params[name] != "" then params[name] else "{{" + name + "}}"
  }

  /** `text.replace(/\{\{(\w+)\}\}/g, …)`: scan left to right, replace each match and
      resume after it; characters outside matches are copied. */
  function Interpolate(text: string, params: map<string, string>): string
    decreases |text|
  {
    if |text| == 0 then ""
    else match PlaceholderAt(text)
      case Some(name) => Replacement(name, params) + Interpolate(text[|name| + 4..], params)
      case None => [text[0]] + Interpolate(text[1..], params)
  }

  /** The parameters `params[key] || match` can actually use: those that are not empty. */
  function TruthyParams(params: map<string, string>): (p: map<string, string>)
    ensures forall k | k in p :: k in params && params[k] == p[k] && p[k] != ""
    ensures forall k | k in params && params[k] != "" :: k in p
  {
    map k | k in params && params[k] != "" :: params[k]
  }

  /** With no parameters (the default `{}`), the text comes back unchanged: every placeholder
      is left verbatim. */
  lemma {:induction false} InterpolateWithoutParams(text: string)
    ensures Interpolate(text, map[]) == text
    decreases |text|
  {
    if |text| > 0 {
      match PlaceholderAt(text)
      case Some(name) =>
        InterpolateWithoutParams(text[|name| + 4..]);
        assert text == text[..|name| + 4] + text[|name| + 4..];
      case None =>
        InterpolateWithoutParams(text[1..]);
        assert text == [text[0]] + text[1..];
    }
  }

  /** One placeholder is answered the same with or without the empty parameters. */
  lemma ReplacementIgnoresEmpty(name: string, params: map<string, string>)
    ensures Replacement(name, params) == Replacement(name, TruthyParams(params))
  {
  }

  /** An empty-string parameter counts as missing: dropping every empty value changes nothing. */
  lemma {:induction false} EmptyParamIsMissing(text: string, params: map<string, string>)
    ensures Interpolate(text, params) == Interpolate(text, TruthyParams(params))
    decreases |text|
  {
    if |text| > 0 {
      var truthy := TruthyParams(params);
      match PlaceholderAt(text)
      case Some(name) =>
        var rest := text[|name| + 4..];
        EmptyParamIsMissing(rest, params);
        ReplacementIgnoresEmpty(name, params);
        assert Interpolate(text, params) == Replacement(name, params) + Interpolate(rest, params);
        assert Interpolate(text, truthy) == Replacement(name, truthy) + Interpolate(rest, truthy);
      case None =>
        EmptyParamIsMissing(text[1..], params);
        assert Interpolate(text, params) == [text[0]] + Interpolate(text[1..], params);
        assert Interpolate(text, truthy) == [text[0]] + Interpolate(text[1..], truthy);
    }
  }

  /** Text without an opening brace has no placeholder and is returned as it is. */
  lemma {:induction false} InterpolateNoBraces(text: string, params: map<string, string>)
    requires '{' !in text
    ensures Interpolate(text, params) == text
    decreases |text|
  {
    if |text| > 0 {
      assert text[0] in text;
      assert PlaceholderAt(text) == None;
      assert forall c | c in text[1..] :: c in text;
      InterpolateNoBraces(text[1..], params);
      assert text == [text[0]] + text[1..];
    }
  }

  /** A text that is one placeholder becomes the parameter when it is non-empty. */
  lemma {:induction false} InterpolateSinglePlaceholder(name: string, params: map<string, string>)
    requires |name| >= 1 && forall i | 0 <= i < |name| :: IsWordChar(name[i])
    ensures Interpolate("{{" + name + "}}", params) == Replacement(name, params)
  {
    var text := "{{" + name + "}}";
    assert text[2..] == name + "}}";
    WordRunOfWord(name, "}}");
    assert PlaceholderAt(text) == Some(name);
    assert text[|name| + 4..] == "";
  }

  /** Conversely, a text that starts with `{{name}}` for a non-empty run of word characters is
      matched there, with that name, whatever follows. */
  lemma PlaceholderAtWord(name: string, rest: string)
    requires |name| >= 1 && forall i | 0 <= i < |name| :: IsWordChar(name[i])
    ensures PlaceholderAt("{{" + name + "}}" + rest) == Some(name)
  {
    var s := "{{" + name + "}}" + rest;
    assert s[2..] == name + ("}}" + rest);
    WordRunOfWord(name, "}}" + rest);
    assert s[|name| + 2] == '}' && s[|name| + 3] == '}';
    assert s[2..|name| + 2] == name;
  }

  /** The run of word characters stops exactly where a word ends and a `}` follows. */
  lemma {:induction false} WordRunOfWord(name: string, rest: string)
    requires forall i | 0 <= i < |name| :: IsWordChar(name[i])
    requires |rest| > 0 && rest[0] == '}'
    ensures WordRun(name + rest) == |name|
    decreases |name|
  {
    if |name| > 0 {
      assert (name + rest)[1..] == name[1..] + rest;
      WordRunOfWord(name[1..], rest);
    }
  }

  /** Text before the first opening brace is copied as it is, whatever follows it. */
  lemma {:induction false} InterpolateLiteralPrefix(prefix: string, text: string, params: map<string, string>)
    requires '{' !in prefix
    ensures Interpolate(prefix + text, params) == prefix + Interpolate(text, params)
    decreases |prefix|
  {
    if |prefix| > 0 {
      var whole := prefix + text;
      assert whole[0] == prefix[0] && prefix[0] in prefix;
      assert PlaceholderAt(whole) == None;
      assert whole[1..] == prefix[1..] + text;
      assert forall c | c in prefix[1..] :: c in prefix;
      InterpolateLiteralPrefix(prefix[1..], text, params);
      assert Interpolate(whole, params) == [whole[0]] + Interpolate(whole[1..], params);
      assert prefix == [prefix[0]] + prefix[1..];
    } else {
      assert prefix + text == text;
    }
  }

  /** A literal text ending in one placeholder, as in "Hi {{name}}": with a non-empty value
      the placeholder becomes the value, and without parameters the text is unchanged. */
  lemma GreetingPattern(prefix: string, name: string, value: string)
    requires '{' !in prefix && value != ""
    requires |name| >= 1 && forall i | 0 <= i < |name| :: IsWordChar(name[i])
    ensures Interpolate(prefix + "{{" + name + "}}", map[name := value]) == prefix + value
    ensures Interpolate(prefix + "{{" + name + "}}", map[]) == prefix + "{{" + name + "}}"
  {
    var p := map[name := value];
    var placeholder := "{{" + name + "}}";
    assert prefix + "{{" + name + "}}" == prefix + placeholder;
    InterpolateLiteralPrefix(prefix, placeholder, p);
    InterpolateSinglePlaceholder(name, p);
    InterpolateWithoutParams(prefix + placeholder);
  }
}

=== FILE: json.dfy ===
/** The JSON values a translation file parses to, and the few JavaScript rules the
    managers apply to them: truthiness and property access. */
module JsonModel {

  /** A value produced by `response.json()`. */
  datatype Json =
    | JNull
    | JBool(b: bool)
    | JNumber(n: real)
    | JString(s: string)
    | JArray(items: seq<Json>)
    | JObject(fields: map<string, Json>)

  /** A JavaScript value as the managers see it: `undefined` or a JSON value. */
  datatype JsValue = Undefined | Defined(v: Json)

  /** JavaScript truthiness: `undefined`, `null`, `false`, `0` and `""` are falsy. */
  predicate Truthy(x: JsValue) {
    match x
    case Undefined => false
    case Defined(JNull) => false
    case Defined(JBool(b)) => b
    case Defined(JNumber(n)) => n != 0.0
    case Defined(JString(s)) => s != ""
    case Defined(JArray(_)) => true
    case Defined(JObject(_)) => true
  }

  /** `undefined` or `null`, the values optional chaining stops at. */
  predicate Nullish(x: JsValue) {
    x == Undefined || x == Defined(JNull)
  }

  /** `x[key]` on a value that is not `undefined` or `null`: an own field of an object,
      `undefined` for anything else. */
  function Property(x: JsValue, key: string): (r: JsValue)
    ensures r != Undefined ==> x.Defined? && x.v.JObject? && key in x.v.fields
  {
    match x
    case Defined(JObject(fields)) => if key in fields then Defined(fields[key]) else Undefined
    case _ => Undefined
  }

  /** `typeof x === 'object' && x !== null`, the shape check a translation file must pass. */
  predicate IsObjectLike(x: Json) {
    x.JObject? || x.JArray?
  }
}

=== FILE: language_switcher.dfy ===
/** The first site's language switcher (assets/js/main.js): module-level `currentLang`,
    `translations` and an unbounded `translationCache` filled lazily by `loadLanguageFile`.

    `features.localStorage` and `features.fetch` (whether the browser has the two APIs) are the
    `Features` value; `fetch('lang/<lang>.json')` with `response.ok` and `response.json()` is
    the oracle `Fetcher`; `localStorage` is the shared `LocalStorage` object. */
module LanguageSwitcher {
  import opened Wrappers
  import opened Text
  import opened JsonModel
  import opened Storage

  const SupportedLangs: seq<string> := ["tr", "en", "de"]
  const DefaultLang: string := "tr"
  const StorageKeyName: string := "site_lang"

  type Fetcher = string -> Option<Json>

  datatype Features = Features(localStorage: bool, fetch: bool)

  /** The module-level variables. `requests` logs every fetch started, oldest first. */
  datatype Switcher = Switcher(
    currentLang: string,
    translations: Json,
    cache: map<string, Json>,
    requests: seq<string>)

  /** `currentLang = 'tr'`, `translations = {}`, an empty cache. */
  const Initial: Switcher := Switcher(DefaultLang, JObject(map[]), map[], [])

  datatype LoadError = FetchUnsupported | LoadFailed

  /** `translationCache[lang]` is truthy. */
  predicate Cached(sw: Switcher, lang: string) {
    lang in sw.cache && Truthy(Defined(sw.cache[lang]))
  }

  /** `loadLanguageFile(lang)`: a truthy cache entry is answered without a fetch; without the
      fetch API it throws; a failed request throws and caches nothing; a loaded file is cached. */
  function LoadFile(sw: Switcher, features: Features, lang: string, fetch: Fetcher): (r: (Switcher, Result<Json, LoadError>))
    ensures Cached(sw, lang) ==> r == (sw, Ok(sw.cache[lang]))
    ensures r.1.Err? ==> r.0.cache == sw.cache
    ensures r.1.Ok? ==> lang in r.0.cache && r.0.cache[lang] == r.1.value
    ensures !Cached(sw, lang) ==>
              (r.1.Ok? <==> features.fetch && fetch(lang).Some?) &&
              (r.1.Ok? ==> r.1.value == fetch(lang).value)
    ensures forall k | k in sw.cache :: k in r.0.cache && (k != lang ==> r.0.cache[k] == sw.cache[k])
  {
    if Cached(sw, lang) then (sw, Ok(sw.cache[lang]))
    else if !features.fetch then (sw, Err(FetchUnsupported))
    else
      var started := sw.(requests := sw.requests + [lang]);
      match fetch(lang)
      case None => (started, Err(LoadFailed))
      case Some(table) => (started.(cache := sw.cache[lang := table]), Ok(table))
  }

  /** The fetch log grows by one request for `lang` exactly when the cache could not answer and
      the fetch API exists. */
  lemma LoadLanguageFileFetches(sw: Switcher, features: Features, lang: string, fetch: Fetcher)
    ensures var after := LoadFile(sw, features, lang, fetch).0;
      after.requests == if !Cached(sw, lang) && features.fetch then sw.requests + [lang] else sw.requests
  {
  }

  /** A second load of a file that loaded as a truthy table is answered from the cache. */
  lemma LoadLanguageFileTwice(sw: Switcher, features: Features, lang: string, fetch: Fetcher)
    requires LoadFile(sw, features, lang, fetch).1.Ok?
    requires Truthy(Defined(LoadFile(sw, features, lang, fetch).1.value))
    ensures var (after, first) := LoadFile(sw, features, lang, fetch);
      LoadFile(after, features, lang, fetch) == (after, first)
  {
  }

  /** `setLanguage(lang)`: an unsupported code returns at once. Otherwise the file is loaded; if
      that throws, the error is caught and nothing but the load's own bookkeeping changes. On
      success the table becomes `translations`, `lang` becomes current and, when the storage
      API exists, it is saved under "site_lang" (a throwing `setItem` is caught). */
  function ApplyLanguage(sw: Switcher, area: StorageArea, features: Features, lang: string, fetch: Fetcher): (Switcher, StorageArea)
  {
    if lang !in SupportedLangs then (sw, area)
    else
      var (loaded, r) := LoadFile(sw, features, lang, fetch);
      match r
      case Err(_) => (loaded, area)
      case Ok(table) =>
        var area' := if features.localStorage then SetItem(area, StorageKeyName, lang) else area;
        (loaded.(translations := table, currentLang := lang), area')
  }

  /** An unsupported code changes nothing at all. */
  lemma SetLanguageUnsupported(sw: Switcher, area: StorageArea, features: Features, lang: string, fetch: Fetcher)
    requires lang !in SupportedLangs
    ensures ApplyLanguage(sw, area, features, lang, fetch) == (sw, area)
  {
  }

  /** `currentLang` and `translations` change only after a successful load, and then to `lang`
      and its table; storage changes only then too. */
  lemma SetLanguageOnlyOnSuccess(sw: Switcher, area: StorageArea, features: Features, lang: string, fetch: Fetcher)
    requires lang in SupportedLangs
    ensures var (sw', area') := ApplyLanguage(sw, area, features, lang, fetch);
      var r := LoadFile(sw, features, lang, fetch).1;
      (r.Ok? ==> sw'.currentLang == lang && sw'.translations == r.value &&
                 (features.localStorage && area.available ==> GetItem(area', StorageKeyName) == Present(lang))) &&
      (r.Err? ==> sw'.currentLang == sw.currentLang && sw'.translations == sw.translations && area' == area)
  {
  }

  /** The cache is never emptied: every cached language stays cached, and truthy entries keep
      their table. */
  lemma SetLanguageKeepsCache(sw: Switcher, area: StorageArea, features: Features, lang: string, fetch: Fetcher)
    ensures var sw' := ApplyLanguage(sw, area, features, lang, fetch).0;
      forall k | k in sw.cache :: k in sw'.cache && (Truthy(Defined(sw.cache[k])) ==> sw'.cache[k] == sw.cache[k])
  {
  }

  /** `navigator.language ? navigator.language.split('-')[0] : 'tr'` (no case folding). */
  function BrowserLang(navigatorLanguage: string): (code: string)
    ensures navigatorLanguage == "" ==> code == DefaultLang
    ensures navigatorLanguage != "" ==> '-' !in code && StartsWith(navigatorLanguage, code)
    ensures navigatorLanguage != "" ==>
              |code| == |navigatorLanguage| || navigatorLanguage[|code|] == '-'
  {
    if navigatorLanguage == "" then DefaultLang
    else
      SplitFirstIsPrefix(navigatorLanguage, '-');
      SplitFirstMaximal(navigatorLanguage, '-');
      Split(navigatorLanguage, '-')[0]
  }

  /** The first piece of a split is a prefix of the string. */
  lemma {:induction false} SplitFirstIsPrefix(s: string, sep: char)
    ensures StartsWith(s, Split(s, sep)[0])
    decreases |s|
  {
    if |s| > 0 {
      SplitFirstIsPrefix(s[1..], sep);
    }
  }

  /** The language `initLanguageSwitcher` asks for: the saved one if supported, else the
      browser's primary subtag if supported, else the current one. */
  function InitialLang(saved: Option<string>, browserLang: string, current: string): (lang: string)
    ensures saved.Some? && saved.value in SupportedLangs ==> lang == saved.value
    ensures !(saved.Some? && saved.value in SupportedLangs) && browserLang in SupportedLangs ==> lang == browserLang
    ensures lang in SupportedLangs || lang == current
    ensures !(saved.Some? && saved.value in SupportedLangs) && browserLang !in SupportedLangs ==> lang == current
  {
    if saved.Some? && saved.value != "" && saved.value in SupportedLangs then saved.value
    else if browserLang in SupportedLangs then browserLang
    else current
  }

  /** `initLanguageSwitcher()`: read "site_lang" when the storage API exists (a throwing
      `getItem` lands in the catch, which sets Turkish), pick the language and call
      `setLanguage`, which catches its own errors. */
  function Startup(sw: Switcher, area: StorageArea, features: Features, navigatorLanguage: string, fetch: Fetcher): (Switcher, StorageArea)
  {
    var saved: Lookup := if features.localStorage then GetItem(area, StorageKeyName) else Absent;
    if saved.Unavailable? then (sw.(currentLang := DefaultLang), area)
    else
      var savedLang := if saved.Present? then Some(saved.value) else None;
      var lang := InitialLang(savedLang, BrowserLang(navigatorLanguage), sw.currentLang);
      ApplyLanguage(sw.(currentLang := lang), area, features, lang, fetch)
  }

  /** Starting from the initial state, the switcher's language is supported whatever happens. */
  lemma InitLanguageSupported(area: StorageArea, features: Features, navigatorLanguage: string, fetch: Fetcher)
    ensures Startup(Initial, area, features, navigatorLanguage, fetch).0.currentLang in SupportedLangs
  {
  }

  /** The module-level variables of the switcher. */
  class SwitcherState {
    var currentLang: string
    var translations: Json
    var cache: map<string, Json>
    var requests: seq<string>

    function State(): Switcher
      reads this
    {
      Switcher(currentLang, translations, cache, requests)
    }

    constructor ()
      ensures State() == Initial
    {
      currentLang := DefaultLang;
      translations := JObject(map[]);
      cache := map[];
      requests := [];
    }

    method LoadLanguageFile(features: Features, lang: string, fetch: Fetcher) returns (r: Result<Json, LoadError>)
      modifies this
      ensures (State(), r) == LoadFile(old(State()), features, lang, fetch)
    {
      if lang in cache && Truthy(Defined(cache[lang])) {
        return Ok(cache[lang]);
      }
      if !features.fetch {
        return Err(FetchUnsupported);
      }
      requests := requests + [lang];
      var response := fetch(lang);
      if response.None? {
        return Err(LoadFailed);
      }
      cache := cache[lang := response.value];
      return Ok(response.value);
    }

    method SetLanguage(lang: string, features: Features, fetch: Fetcher, storage: LocalStorage)
      modifies this, storage
      ensures (State(), storage.Area()) == ApplyLanguage(old(State()), old(storage.Area()), features, lang, fetch)
    {
      if lang !in SupportedLangs {
        return;
      }
      var r := LoadLanguageFile(features, lang, fetch);
      if r.Err? {
        return;
      }
      translations := r.value;
      currentLang := lang;
      if features.localStorage {
        var _ := storage.Put(StorageKeyName, lang);
      }
    }

    method InitLanguageSwitcher(features: Features, navigatorLanguage: string, fetch: Fetcher, storage: LocalStorage)
      modifies this, storage
      ensures (State(), storage.Area()) ==
              Startup(old(State()), old(storage.Area()), features, navigatorLanguage, fetch)
    {
      var saved: Lookup := Absent;
      if features.localStorage {
        saved := GetItem(storage.Area(), StorageKeyName);
      }
      if saved.Unavailable? {
        currentLang := DefaultLang;
        return;
      }
      var savedLang := if saved.Present? then Some(saved.value) else None;
      currentLang := InitialLang(savedLang, BrowserLang(navigatorLanguage), currentLang);
      SetLanguage(currentLang, features, fetch, storage);
    }
  }
}

=== FILE: legacy_i18n.dfy ===
/** The first site's `I18nManager` (i18n.js): no cache, a fixed fallback to Turkish that
    swallows every error, a start-up priority of saved language, then browser language, then
    Turkish, and a dotted-key lookup by optional chaining.

    `fetch('/translations/<lang>.json')` with `response.ok` and `response.json()` is the
    oracle `Fetcher` (`None` for any failure); `localStorage` is the shared `LocalStorage`
    object. */
module LegacyI18n {
  import opened Wrappers
  import opened Text
  import opened JsonModel
  import opened Storage
  import SiteI18n

  const Supported: seq<string> := ["tr", "en", "de"]
  const Fallback: string := "tr"
  const PreferenceKey: string := "furkan-preferred-language"

  /** The sections `updatePageContent` dereferences (`t.hero.title`, …): one that is `null`
      or `undefined` makes it throw. */
  const PageSections: seq<string> := ["hero", "donation", "buttons", "sections", "permission", "urgency", "social"]

  type Fetcher = string -> Option<Json>

  /** The part of `updatePageContent()` that the table alone decides: it throws when the
      table of the current language is truthy but one of the sections it reads a field of is
      nullish. A falsy table makes it return early. */
  predicate PageUpdateThrows(t: JsValue) {
    Truthy(t) && exists i | 0 <= i < |PageSections| :: Nullish(Property(t, PageSections[i]))
  }

  /** The part that depends on the page: whether, for a table whose sections are all there,
      `updateElement` meets a leaf that is not a string while an element it selects is on the
      page (`text.includes` throws), or `updateProgressBar` or `updateIBANButtons` throws. */
  type PageOracle = Json -> bool

  /** `updatePageContent()` throws for the freshly loaded table. */
  predicate PageUpdateFails(page: PageOracle, table: Json) {
    PageUpdateThrows(Defined(table)) || page(table)
  }

  /** The fields of an `I18nManager`; `requests` logs every fetch started, oldest first. */
  datatype LegacyStore = LegacyStore(
    current: string,
    translations: map<string, Json>,
    requests: seq<string>,
    initialized: bool)

  const Initial: LegacyStore := LegacyStore(Fallback, map[], [], false)

  function TableOf(s: LegacyStore, lang: string): JsValue {
    if lang in s.translations then Defined(s.translations[lang]) else Undefined
  }

  /** `loadLanguage(lang)`. A fetch always starts. On success the table is stored and `lang`
      made current before the preference is saved and the page updated; if any of these steps
      throws (failed fetch, unusable storage, a failing page update) the error is caught, what
      was already assigned stays, and a language other than Turkish is followed by
      `loadLanguage('tr')`. Turkish's own failure is swallowed: the call never rejects. */
  function Load(s: LegacyStore, area: StorageArea, lang: string, fetch: Fetcher, page: PageOracle): (LegacyStore, StorageArea)
    decreases if lang == Fallback then 0 else 1
  {
    var started := s.(requests := s.requests + [lang]);
    var (reached, area', ok) :=
      match fetch(lang)
      case None => (started, area, false)
      case Some(table) =>
        var stored := started.(translations := started.translations[lang := table], current := lang);
        if !area.available then (stored, area, false)
        else (stored, SetItem(area, PreferenceKey, lang), !PageUpdateFails(page, table));
    if ok || lang == Fallback then (reached, area')
    else Load(reached, area', Fallback, fetch, page)
  }

  /** The `try` block of `loadLanguage(lang)` runs to its end: the fetch succeeds, the
      preference is saved and the page update does not throw. */
  predicate LoadGoesThrough(area: StorageArea, lang: string, fetch: Fetcher, page: PageOracle) {
    fetch(lang).Some? && area.available && !PageUpdateFails(page, fetch(lang).value)
  }

  /** `loadLanguage` leaves the initialised flag alone and appends to the fetch log, starting
      with `lang` itself: even a language already in `translations` is fetched again. A load
      that goes through, or one of Turkish, fetches once; any other failure is followed by
      exactly one fetch of Turkish. */
  lemma {:induction false} LoadLanguageFetches(s: LegacyStore, area: StorageArea, lang: string, fetch: Fetcher, page: PageOracle)
    ensures var s' := Load(s, area, lang, fetch, page).0;
      s'.initialized == s.initialized &&
      |s'.requests| > |s.requests| && s'.requests[..|s.requests| + 1] == s.requests + [lang]
    ensures Load(s, area, lang, fetch, page).0.requests ==
      s.requests + if lang == Fallback || LoadGoesThrough(area, lang, fetch, page) then [lang] else [lang, Fallback]
    decreases if lang == Fallback then 0 else 1
  {
    var started := s.(requests := s.requests + [lang]);
    if lang != Fallback {
      match fetch(lang)
      case None =>
        LoadLanguageFetches(started, area, Fallback, fetch, page);
      case Some(table) =>
        var stored := started.(translations := started.translations[lang := table], current := lang);
        LoadLanguageFetches(stored, area, Fallback, fetch, page);
        LoadLanguageFetches(stored, SetItem(area, PreferenceKey, lang), Fallback, fetch, page);
    }
  }

  /** A load that goes through stores the table, makes `lang` current and saves it as the
      preference, with one fetch. */
  lemma LoadLanguageSuccess(s: LegacyStore, area: StorageArea, lang: string, fetch: Fetcher, page: PageOracle)
    requires fetch(lang).Some? && area.available && !PageUpdateFails(page, fetch(lang).value)
    ensures var (s', area') := Load(s, area, lang, fetch, page);
      s'.translations == s.translations[lang := fetch(lang).value] &&
      s'.current == lang &&
      GetItem(area', PreferenceKey) == Present(lang) &&
      s'.requests == s.requests + [lang]
  {
  }

  /** A failed fetch of a language other than Turkish is followed by loading Turkish, from the
      state in which the failed fetch is logged and nothing else has changed. */
  lemma LoadLanguageFetchFailure(s: LegacyStore, area: StorageArea, lang: string, fetch: Fetcher, page: PageOracle)
    requires fetch(lang).None? && lang != Fallback
    ensures Load(s, area, lang, fetch, page) == Load(s.(requests := s.requests + [lang]), area, Fallback, fetch, page)
  {
  }

  /** When Turkish itself cannot be fetched the error is swallowed: only the fetch is logged. */
  lemma FallbackFailureSwallowed(s: LegacyStore, area: StorageArea, fetch: Fetcher, page: PageOracle)
    requires fetch(Fallback).None?
    ensures Load(s, area, Fallback, fetch, page) == (s.(requests := s.requests + [Fallback]), area)
  {
  }

  /** A table that loads but breaks the page update is kept, and `lang` stays current when
      the Turkish retry cannot be fetched. */
  lemma LoadLanguagePageFailure(s: LegacyStore, area: StorageArea, lang: string, fetch: Fetcher, page: PageOracle)
    requires fetch(lang).Some? && area.available && PageUpdateFails(page, fetch(lang).value)
    requires lang != Fallback && fetch(Fallback).None?
    ensures var (s', area') := Load(s, area, lang, fetch, page);
      s'.current == lang && lang in s'.translations && GetItem(area', PreferenceKey) == Present(lang) &&
      s'.requests == s.requests + [lang, Fallback]
  {
  }

  /** The language `init` loads: the saved one when it is supported, else English or German when
      the browser language starts with "en" or "de", else what is already current. `None` means
      the browser string would be read while it is `undefined`, which throws. */
  function InitialLanguage(saved: Lookup, browserLang: Option<string>, current: string): (r: Option<string>)
    ensures saved.Present? && saved.value in Supported ==> r == Some(saved.value)
    ensures r.None? <==> !(saved.Present? && saved.value in Supported) && browserLang.None?
    ensures r.Some? && r.value != current ==> r.value in Supported
    ensures !(saved.Present? && saved.value in Supported) && browserLang.Some? ==>
              r == Some(if StartsWith(browserLang.value, "en") then "en"
                        else if StartsWith(browserLang.value, "de") then "de"
                        else current)
  {
    if saved.Present? && saved.value != "" && saved.value in Supported then Some(saved.value)
    else if browserLang.None? then None
    else if StartsWith(browserLang.value, "en") then Some("en")
    else if StartsWith(browserLang.value, "de") then Some("de")
    else Some(current)
  }

  /** `init()`: with storage unusable, or the browser language needed but missing, the catch sets
      Turkish and the manager stays uninitialised; otherwise the chosen language is loaded (which
      never rejects) and the manager is initialised. */
  function Startup(s: LegacyStore, area: StorageArea, browserLang: Option<string>, fetch: Fetcher, page: PageOracle): (LegacyStore, StorageArea)
  {
    var saved := GetItem(area, PreferenceKey);
    if saved.Unavailable? then (s.(current := Fallback), area)
    else match InitialLanguage(saved, browserLang, s.current)
      case None => (s.(current := Fallback), area)
      case Some(lang) =>
        var (loaded, area') := Load(s.(current := lang), area, lang, fetch, page);
        (loaded.(initialized := true), area')
  }

  /** Start-up with storage usable and a supported saved language fetches that language first
      and ends initialised; without usable storage nothing is fetched and it is not. */
  lemma InitPriority(s: LegacyStore, area: StorageArea, browserLang: Option<string>, fetch: Fetcher, page: PageOracle)
    ensures area.available && PreferenceKey in area.items && area.items[PreferenceKey] in Supported ==>
              var s' := Startup(s, area, browserLang, fetch, page).0;
              s'.initialized && s'.requests[|s.requests|] == area.items[PreferenceKey]
    ensures !area.available ==> Startup(s, area, browserLang, fetch, page) == (s.(current := Fallback), area)
  {
    if area.available && PreferenceKey in area.items && area.items[PreferenceKey] in Supported {
      var lang := area.items[PreferenceKey];
      LoadLanguageFetches(s.(current := lang), area, lang, fetch, page);
    }
  }

  /** `changeLanguage(lang)`: nothing before initialisation or for the current language;
      otherwise `loadLanguage(lang)`, which never rejects, so the error branch is dead. */
  function SwitchLanguage(s: LegacyStore, area: StorageArea, lang: string, fetch: Fetcher, page: PageOracle): (LegacyStore, StorageArea)
  {
    if lang == s.current || !s.initialized then (s, area)
    else Load(s, area, lang, fetch, page)
  }

  /** The two guards: no fetch and no change at all. Past them, one fetch of `lang` starts. */
  lemma ChangeLanguageGuards(s: LegacyStore, area: StorageArea, lang: string, fetch: Fetcher, page: PageOracle)
    ensures lang == s.current || !s.initialized ==> SwitchLanguage(s, area, lang, fetch, page) == (s, area)
    ensures lang != s.current && s.initialized ==>
              |SwitchLanguage(s, area, lang, fetch, page).0.requests| > |s.requests| &&
              SwitchLanguage(s, area, lang, fetch, page).0.requests[|s.requests|] == lang
  {
    LoadLanguageFetches(s, area, lang, fetch, page);
  }

  // ----- getTranslation -----

  /** `translation?.[k]`: `undefined` once the value is nullish, the property otherwise. */
  function Chain(v: JsValue, k: string): JsValue {
    if Nullish(v) then Undefined else Property(v, k)
  }

  /** The value the `for` loop of `getTranslation` ends with, after the given key parts. */
  function ChainAll(v: JsValue, parts: seq<string>): JsValue
    decreases |parts|
  {
    if |parts| == 0 then v else ChainAll(Chain(v, parts[0]), parts[1..])
  }

  /** One more loop round applies one more step to the value so far. */
  lemma {:induction false} ChainAllSnoc(v: JsValue, parts: seq<string>, k: string)
    ensures ChainAll(v, parts + [k]) == Chain(ChainAll(v, parts), k)
    decreases |parts|
  {
    if |parts| > 0 {
      assert (parts + [k])[1..] == parts[1..] + [k];
      ChainAllSnoc(Chain(v, parts[0]), parts[1..], k);
    }
  }

  /** Once the chain reaches `undefined` it stays there. */
  lemma {:induction false} ChainAllUndefined(parts: seq<string>)
    ensures ChainAll(Undefined, parts) == Undefined
    decreases |parts|
  {
    if |parts| > 0 {
      ChainAllUndefined(parts[1..]);
    }
  }

  /** The optional-chaining loop and the new site's `&&` reduction differ only on falsy values
      (`""` or `0` part-way give `undefined` here and themselves there): both are truthy for the
      same keys, and then equal. */
  lemma {:induction false} ChainAgreesWithReduce(v: JsValue, parts: seq<string>)
    ensures Truthy(ChainAll(v, parts)) <==> Truthy(SiteI18n.Walk(v, parts))
    ensures Truthy(ChainAll(v, parts)) ==> ChainAll(v, parts) == SiteI18n.Walk(v, parts)
    decreases |parts|
  {
    if |parts| > 0 {
      if Truthy(v) {
        ChainAgreesWithReduce(Property(v, parts[0]), parts[1..]);
      } else {
        assert Chain(v, parts[0]) == Undefined;
        ChainAllUndefined(parts[1..]);
        SiteI18n.WalkFalsyStays(v, parts[1..]);
      }
    }
  }

  // ----- The manager object -----

  class I18nManager {
    var current: string
    var translations: map<string, Json>
    var requests: seq<string>
    var initialized: bool

    function State(): LegacyStore
      reads this
    {
      LegacyStore(current, translations, requests, initialized)
    }

    /** The fields as the constructor sets them before `init` runs. */
    constructor ()
      ensures State() == Initial
    {
      current := Fallback;
      translations := map[];
      requests := [];
      initialized := false;
    }

    method LoadLanguage(lang: string, fetch: Fetcher, page: PageOracle, storage: LocalStorage)
      modifies this, storage
      ensures (State(), storage.Area()) == Load(old(State()), old(storage.Area()), lang, fetch, page)
      decreases if lang == Fallback then 0 else 1
    {
      requests := requests + [lang];
      var ok := false;
      match fetch(lang) {
        case None =>
        case Some(table) =>
          translations := translations[lang := table];
          current := lang;
          var saved := storage.Put(PreferenceKey, lang);
          if saved {
            ok := !PageUpdateFails(page, table);
          }
      }
      if !ok && lang != Fallback {
        LoadLanguage(Fallback, fetch, page, storage);
      }
    }

    method Init(browserLang: Option<string>, fetch: Fetcher, page: PageOracle, storage: LocalStorage)
      modifies this, storage
      ensures (State(), storage.Area()) == Startup(old(State()), old(storage.Area()), browserLang, fetch, page)
    {
      var saved := GetItem(storage.Area(), PreferenceKey);
      if saved.Unavailable? {
        current := Fallback;
        return;
      }
      var chosen := InitialLanguage(saved, browserLang, current);
      if chosen.None? {
        current := Fallback;
        return;
      }
      current := chosen.value;
      LoadLanguage(current, fetch, page, storage);
      initialized := true;
    }

    method ChangeLanguage(lang: string, fetch: Fetcher, page: PageOracle, storage: LocalStorage)
      modifies this, storage
      ensures (State(), storage.Area()) == SwitchLanguage(old(State()), old(storage.Area()), lang, fetch, page)
    {
      if lang == current || !initialized {
        return;
      }
      LoadLanguage(lang, fetch, page, storage);
    }

    /** `getTranslation(key)`: walk the dotted key with optional chaining; `translation || key`. */
    method GetTranslation(key: string) returns (r: JsValue)
      ensures var found := ChainAll(TableOf(State(), current), Split(key, '.'));
        r == if Truthy(found) then found else Defined(JString(key))
    {
      var keys := Split(key, '.');
      var translation := TableOf(State(), current);
      for i := 0 to |keys|
        invariant translation == ChainAll(TableOf(State(), current), keys[..i])
      {
        ChainAllSnoc(TableOf(State(), current), keys[..i], keys[i]);
        assert keys[..i + 1] == keys[..i] + [keys[i]];
        translation := Chain(translation, keys[i]);
      }
      assert keys[..|keys|] == keys;
      r := if Truthy(translation) then translation else Defined(JString(key));
    }

    /** `updateLanguageButtons()`: each button is marked active (and `aria-selected`) exactly when
        its `data-lang` is the current language. */
    method UpdateLanguageButtons(buttonLangs: seq<string>, active: array<bool>)
      requires active.Length == |buttonLangs|
      modifies active
      ensures forall i | 0 <= i < active.Length :: active[i] <==> buttonLangs[i] == current
    {
      for i := 0 to active.Length
        invariant forall j | 0 <= j < i :: active[j] <==> buttonLangs[j] == current
      {
        active[i] := buttonLangs[i] == current;
      }
    }
  }

  /** The legacy lookup answers the key itself exactly when the new site's `t` would, and
      otherwise the same value. */
  lemma GetTranslationMatchesNewSite(table: JsValue, key: string)
    ensures var legacy := ChainAll(table, Split(key, '.'));
      var modern := SiteI18n.GetNestedTranslation(table, key);
      (Truthy(legacy) <==> Truthy(modern)) && (Truthy(legacy) ==> legacy == modern)
  {
    ChainAgreesWithReduce(table, Split(key, '.'));
  }
}

=== FILE: managers.dfy ===
/** The new site's page managers (furkan-new-site/js/main.js): the donation progress bar, the
    loading screen, the sticky donate button, the scroll-in animations and the toast registry.
    Each manager is an object whose fields its methods update; each method is proved against a
    pure function of the manager's state, and the promised behaviour is proved about those
    functions. DOM nodes, timers and animation frames are not modelled: an element is an
    identity, and a callback scheduled by a timer is its own method. */
module Managers {
  import opened Wrappers

  /** `CONFIG.donation.goal` and `CONFIG.donation.currentPercentage`. */
  const Goal: real := 2899907.0
  const InitialPercentage: real := 60.0
  /** `CONFIG.animations.stagger`, in milliseconds. */
  const Stagger: nat := 100
  /** Above this `scrollY` the sticky button follows the scroll direction. */
  const ScrollThreshold: real := 300.0

  // ----- Progress bar -----

  /** `Math.min(Math.max(p, 0), 100)`. */
  function Clamp(p: real): (c: real)
    ensures 0.0 <= c <= 100.0
    ensures 0.0 <= p <= 100.0 ==> c == p
    ensures p < 0.0 ==> c == 0.0
    ensures p > 100.0 ==> c == 100.0
  {
    if p < 0.0 then 0.0 else if p > 100.0 then 100.0 else p
  }

  /** The collected and remaining amounts `updateStats` shows. */
  datatype Stats = Stats(collected: real, remaining: real)

  function ComputeStats(goal: real, percentage: real): (s: Stats)
    ensures s.collected + s.remaining == goal
  {
    var collected := goal * percentage / 100.0;
    Stats(collected, goal - collected)
  }

  /** For a percentage in range neither amount is negative nor above the goal, and the
      collected amount grows with the percentage. */
  lemma StatsBounds(goal: real, p: real, q: real)
    requires goal >= 0.0 && 0.0 <= p <= q <= 100.0
    ensures var s := ComputeStats(goal, p);
      0.0 <= s.collected <= goal && 0.0 <= s.remaining <= goal
    ensures ComputeStats(goal, p).collected <= ComputeStats(goal, q).collected
  {
    assert 0.0 <= goal * p by { MulNonNegative(goal, p); }
    assert goal * p <= goal * q by { MulNonNegative(goal, q - p); }
    assert goal * q <= goal * 100.0 by { MulNonNegative(goal, 100.0 - q); }
    assert goal * p / 100.0 <= goal * q / 100.0;
    assert goal * q / 100.0 <= goal * 100.0 / 100.0 == goal;
  }

  lemma MulNonNegative(x: real, y: real)
    requires x >= 0.0 && y >= 0.0
    ensures x * y >= 0.0
  {
  }

  /** The progress manager's fields: the percentage, the `isAnimating` guard and how many
      animations have been started (each start runs the fill and text animations and schedules
      `updateStats`). */
  datatype Progress = Progress(percentage: real, animating: bool, runs: nat)

  /** `animateProgress()`: nothing while an animation is running. */
  function StartAnimation(p: Progress): (r: Progress)
    ensures r.animating && r.percentage == p.percentage
    ensures r.runs == if p.animating then p.runs else p.runs + 1
  {
    if p.animating then p else p.(animating := true, runs := p.runs + 1)
  }

  /** The last frame of the fill animation clears the guard. */
  function FinishAnimation(p: Progress): (r: Progress)
    ensures !r.animating && r.percentage == p.percentage && r.runs == p.runs
  {
    p.(animating := false)
  }

  /** `updatePercentage(v)`: clamp, then try to animate. */
  function SetPercentage(p: Progress, v: real): (r: Progress)
    ensures 0.0 <= r.percentage <= 100.0
    ensures r.percentage == Clamp(v)
    ensures r.animating
    ensures r.runs == if p.animating then p.runs else p.runs + 1
  {
    StartAnimation(p.(percentage := Clamp(v)))
  }

  /** While one animation runs, further starts (from the observer or from `updatePercentage`)
      start nothing; once it finishes, the next start runs. */
  lemma AnimationOnceAtATime(p: Progress, v: real)
    ensures StartAnimation(StartAnimation(p)) == StartAnimation(p)
    ensures SetPercentage(StartAnimation(p), v).runs == StartAnimation(p).runs
    ensures StartAnimation(FinishAnimation(StartAnimation(p))).runs == StartAnimation(p).runs + 1
  {
  }

  class ProgressManager {
    /** `setupProgressBar` threw: the bar and its fill were found but the text was not. */
    const setupFailed: bool
    var currentPercentage: real
    var isAnimating: bool
    var runs: nat

    function State(): Progress
      reads this
    {
      Progress(currentPercentage, isAnimating, runs)
    }

    /** `new ProgressManager()`: `init` returns early unless the bar and its fill are found
        (`barFound`). `setupProgressBar` then writes the text element, and throws before any
        animation when it is missing (`textFound` false). Otherwise `animateProgress` runs. */
    constructor (barFound: bool, textFound: bool)
      ensures setupFailed <==> barFound && !textFound
      ensures State() == if barFound && textFound then StartAnimation(Progress(InitialPercentage, false, 0))
                         else Progress(InitialPercentage, false, 0)
    {
      setupFailed := barFound && !textFound;
      currentPercentage := InitialPercentage;
      isAnimating := false;
      runs := 0;
      new;
      if barFound && textFound {
        AnimateProgress();
      }
    }

    method AnimateProgress()
      modifies this
      ensures State() == StartAnimation(old(State()))
    {
      if isAnimating {
        return;
      }
      isAnimating := true;
      runs := runs + 1;
    }

    /** The fill animation's final frame. */
    method AnimationDone()
      modifies this
      ensures State() == FinishAnimation(old(State()))
    {
      isAnimating := false;
    }

    method UpdatePercentage(v: real)
      modifies this
      ensures State() == SetPercentage(old(State()), v)
    {
      currentPercentage := if v < 0.0 then 0.0 else if v > 100.0 then 100.0 else v;
      AnimateProgress();
    }

    /** The two amounts `updateStats` writes. */
    method UpdateStats() returns (s: Stats)
      ensures s == ComputeStats(Goal, currentPercentage)
      ensures s.collected + s.remaining == Goal
    {
      var collected := Goal * currentPercentage / 100.0;
      s := Stats(collected, Goal - collected);
    }
  }

  // ----- Loading screen -----

  /** `isLoaded`, and whether the loading screen carries the `hidden` class. */
  datatype Loading = Loading(loaded: bool, hidden: bool)

  /** `hideLoading()`: a second call does nothing; the screen, when present, is hidden. */
  function Hide(l: Loading, screenPresent: bool): (r: Loading)
    ensures r.loaded
    ensures r.hidden == (l.hidden || (!l.loaded && screenPresent))
  {
    if l.loaded then l else Loading(true, l.hidden || screenPresent)
  }

  /** The `load` event and the three-second fallback may both fire, in either order; the
      result is that of the first. */
  lemma HideLoadingIdempotent(l: Loading, screenPresent: bool)
    ensures Hide(Hide(l, screenPresent), screenPresent) == Hide(l, screenPresent)
  {
  }

  class LoadingManager {
    const screenPresent: bool
    var isLoaded: bool
    var hidden: bool

    function State(): Loading
      reads this
    {
      Loading(isLoaded, hidden)
    }

    constructor (screenPresent: bool)
      ensures this.screenPresent == screenPresent && State() == Loading(false, false)
    {
      this.screenPresent := screenPresent;
      isLoaded := false;
      hidden := false;
    }

    method HideLoading()
      modifies this
      ensures State() == Hide(old(State()), screenPresent)
    {
      if isLoaded {
        return;
      }
      isLoaded := true;
      if screenPresent {
        hidden := true;
      }
    }

    /** The fallback timer: hide only if not yet loaded. */
    method Fallback()
      modifies this
      ensures State() == Hide(old(State()), screenPresent)
    {
      if !isLoaded {
        HideLoading();
      }
    }
  }

  // ----- Sticky donate button -----

  /** `lastScrollY`, `isScrollingDown` and whether the button has the `visible` class. */
  datatype Scroll = Scroll(lastY: real, down: bool, visible: bool)

  /** `handleScroll()` with `window.scrollY == y`. */
  function Scrolled(s: Scroll, y: real): (r: Scroll)
    ensures r.lastY == y && r.down == (y > s.lastY)
    ensures y <= ScrollThreshold ==> !r.visible
    ensures y > ScrollThreshold ==> (r.visible <==> y <= s.lastY)
  {
    var down := y > s.lastY;
    var visible := if y > ScrollThreshold then !down else false;
    Scroll(y, down, visible)
  }

  /** After a scroll the button depends only on the previous and the new position, not on
      whether it was showing before. */
  lemma HandleScrollForgetsVisibility(s: Scroll, y: real)
    ensures Scrolled(s, y) == Scrolled(s.(visible := !s.visible, down := !s.down), y)
  {
  }

  /** Two events at the same position below the fold: the second shows the button, whatever
      the first did. */
  lemma HandleScrollSettles(s: Scroll, y: real)
    requires y > ScrollThreshold
    ensures Scrolled(Scrolled(s, y), y).visible
  {
  }

  class ScrollManager {
    var lastScrollY: real
    var isScrollingDown: bool
    var visible: bool

    function State(): Scroll
      reads this
    {
      Scroll(lastScrollY, isScrollingDown, visible)
    }

    constructor ()
      ensures State() == Scroll(0.0, false, false)
    {
      lastScrollY := 0.0;
      isScrollingDown := false;
      visible := false;
    }

    method HandleScroll(y: real)
      modifies this
      ensures State() == Scrolled(old(State()), y)
    {
      isScrollingDown := y > lastScrollY;
      if y > ScrollThreshold {
        if isScrollingDown {
          visible := false;
        } else {
          visible := true;
        }
      } else {
        visible := false;
      }
      lastScrollY := y;
    }

    /** The two-second timer in `init`. */
    method ShowStickyButton()
      modifies this
      ensures State() == old(State()).(visible := true)
    {
      visible := true;
    }
  }

  // ----- Scroll-in animations -----

  /** Elements are identities. `animated` is the `animatedElements` set and `delay` the
      `animationDelay` each animated element received. */
  type Element = nat

  datatype Animations = Animations(animated: set<Element>, delay: map<Element, nat>)

  /** `animateElement(e)` where `e` is child number `index` of its parent. */
  function Animate(a: Animations, e: Element, index: nat): (r: Animations)
    ensures e in r.animated && r.animated == a.animated + {e}
    ensures e !in a.animated ==> e in r.delay && r.delay[e] == index * Stagger
    ensures e in a.animated ==> r == a
    ensures forall x | x in a.delay :: x in r.delay && (x != e ==> r.delay[x] == a.delay[x])
  {
    if e in a.animated then a
    else Animations(a.animated + {e}, a.delay[e := index * Stagger])
  }

  /** An element animates once: later intersections, at whatever position, change nothing. */
  lemma AnimateElementOnce(a: Animations, e: Element, i: nat, j: nat)
    ensures Animate(Animate(a, e, i), e, j) == Animate(a, e, i)
  {
  }

  /** Every animated element has its delay, as long as that held before. */
  predicate DelaysRecorded(a: Animations) {
    forall x | x in a.animated :: x in a.delay
  }

  lemma AnimateElementKeepsDelays(a: Animations, e: Element, i: nat)
    requires DelaysRecorded(a)
    ensures DelaysRecorded(Animate(a, e, i))
  {
  }

  class AnimationManager {
    var animatedElements: set<Element>
    var delays: map<Element, nat>

    function State(): Animations
      reads this
    {
      Animations(animatedElements, delays)
    }

    constructor ()
      ensures State() == Animations({}, map[])
    {
      animatedElements := {};
      delays := map[];
    }

    method AnimateElement(e: Element, index: nat)
      modifies this
      ensures State() == Animate(old(State()), e, index)
    {
      if e in animatedElements {
        return;
      }
      animatedElements := animatedElements + {e};
      delays := delays[e := index * Stagger];
    }
  }

  // ----- Toasts -----

  datatype Toast = Toast(message: string, kind: string, duration: nat)

  /** `show(message, type, duration)` with `id` the value `generateId()` produced. A repeated
      id (a random collision) replaces the earlier toast in the map. */
  function ShowToast(toasts: map<string, Toast>, id: string, t: Toast): (r: map<string, Toast>)
    ensures id in r && r[id] == t
    ensures r.Keys == toasts.Keys + {id}
    ensures forall k | k in toasts && k != id :: r[k] == toasts[k]
  {
    toasts[id := t]
  }

  /** `hide(id)` once its removal timer has run: an unknown id is ignored, a known one is
      deleted and every other toast stays. */
  function HideToast(toasts: map<string, Toast>, id: string): (r: map<string, Toast>)
    ensures id !in r
    ensures id !in toasts ==> r == toasts
    ensures forall k | k in toasts && k != id :: k in r && r[k] == toasts[k]
    ensures r.Keys == toasts.Keys - {id}
  {
    toasts - {id}
  }

  /** Showing a toast under a fresh id and hiding it leaves the registry as it was. */
  lemma ShowThenHide(toasts: map<string, Toast>, id: string, t: Toast)
    requires id !in toasts
    ensures HideToast(ShowToast(toasts, id, t), id) == toasts
    ensures |ShowToast(toasts, id, t)| == |toasts| + 1
  {
    assert HideToast(ShowToast(toasts, id, t), id).Keys == toasts.Keys;
  }

  class ToastManager {
    /** `#toastContainer` was found; the constructor only warns when it is not. */
    const containerPresent: bool
    var toasts: map<string, Toast>

    constructor (containerPresent: bool)
      ensures this.containerPresent == containerPresent && toasts == map[]
    {
      this.containerPresent := containerPresent;
      toasts := map[];
    }

    /** `show(message, type, duration)` with `id` for `generateId()`: the toast is registered,
        then appended to the container. Without a container `appendChild` throws: the toast
        stays registered, no id is returned (`None`) and no removal is scheduled. */
    method Show(message: string, kind: string, duration: nat, id: string) returns (toastId: Option<string>)
      modifies this
      ensures toastId == if containerPresent then Some(id) else None
      ensures toasts == ShowToast(old(toasts), id, Toast(message, kind, duration))
    {
      toasts := toasts[id := Toast(message, kind, duration)];
      if !containerPresent {
        return None;
      }
      toastId := Some(id);
    }

    method Hide(id: string)
      modifies this
      ensures toasts == HideToast(old(toasts), id)
    {
      if id !in toasts {
        return;
      }
      toasts := toasts - {id};
    }
  }
}

=== FILE: site_i18n.dfy ===
/** The new site's `TranslationManager` (furkan-new-site/js/i18n.js): a per-language cache
    with a maximum age, a set of languages whose fetch is still in flight, fallback to the
    default language when a load fails, dotted-key lookup and `{{name}}` interpolation.

    `fetch` (with `response.ok` and `response.json()`) is the oracle `Fetcher`: `None` stands
    for a network error, a non-OK status or a body that does not parse. `Date.now()` is the
    parameter `now`. The promise kept in `loadingPromises` is modelled by the set `loading`:
    a caller that finds its language there receives the outcome of that same fetch. */
module SiteI18n {
  import opened Wrappers
  import opened Text
  import opened JsonModel
  import opened Storage
  import opened Interpolation

  // ----- I18N_CONFIG -----

  const Languages: set<string> := {"tr", "en", "de"}
  const Default: string := "tr"
  /** `cache.maxAge`: 24 hours in milliseconds. */
  const MaxAge: int := 86400000
  const PreferenceKey: string := "furkan_preferred_language"
  const RequiredSections: seq<string> := ["hero", "donation", "buttons", "contact"]

  type Fetcher = string -> Option<Json>

  // ----- Language detection and the saved preference -----

  /** `browserLang.split('-')[0].toLowerCase()`. */
  function PrimarySubtag(browserLang: string): (code: string)
    ensures '-' !in code
    ensures |code| <= |browserLang|
    ensures |code| == |browserLang| || browserLang[|code|] == '-'
    ensures forall i | 0 <= i < |code| :: code[i] == LowerChar(browserLang[i])
  {
    var first := Split(browserLang, '-')[0];
    SplitFirstShorter(browserLang, '-');
    SplitFirstMaximal(browserLang, '-');
    assert forall i | 0 <= i < |first| :: first[i] == browserLang[i];
    assert forall c | c in ToLower(first) :: c == '-' ==> '-' in first;
    ToLower(first)
  }

  /** The first piece of a split is no longer than the string. */
  lemma {:induction false} SplitFirstShorter(s: string, sep: char)
    ensures |Split(s, sep)[0]| <= |s|
    decreases |s|
  {
    if |s| > 0 {
      SplitFirstShorter(s[1..], sep);
    }
  }

  /** `detectBrowserLanguage()`: the primary subtag when it is supported; otherwise English or
      German for a subtag that starts with "en" or "de"; otherwise the default. */
  function DetectBrowserLanguage(browserLang: string): (lang: string)
    ensures lang in Languages
    ensures PrimarySubtag(browserLang) in Languages ==> lang == PrimarySubtag(browserLang)
    ensures lang == "en" <==> StartsWith(PrimarySubtag(browserLang), "en")
    ensures lang == "de" <==> StartsWith(PrimarySubtag(browserLang), "de")
    ensures lang == Default <==>
              !StartsWith(PrimarySubtag(browserLang), "en") && !StartsWith(PrimarySubtag(browserLang), "de")
  {
    var code := PrimarySubtag(browserLang);
    if code in Languages then
      assert code == "tr" ==> !StartsWith(code, "en") && !StartsWith(code, "de") by {
        if code == "tr" {
          assert code[..2] == "tr";
        }
      }
      code
    else if StartsWith(code, "en") then
      assert !StartsWith(code, "de") by { assert code[..2] == "en"; }
      "en"
    else if StartsWith(code, "de") then "de"
    else Default
  }

  /** `loadLanguagePreference()`: the saved language when storage works and it names a
      supported language; `null` otherwise (a storage failure is caught). */
  function LoadLanguagePreference(area: StorageArea): (saved: Option<string>)
    ensures saved.Some? <==> GetItem(area, PreferenceKey).Present? && GetItem(area, PreferenceKey).value in Languages
    ensures saved.Some? ==> saved.value in Languages && saved.value == area.items[PreferenceKey]
  {
    match GetItem(area, PreferenceKey)
    case Present(v) => if v != "" && v in Languages then Some(v) else None
    case _ => None
  }

  /** `saveLanguagePreference(lang)`: a failing `setItem` is caught and changes nothing. */
  function SaveLanguagePreference(area: StorageArea, lang: string): (r: StorageArea)
    ensures area.available ==> LoadLanguagePreference(r) == if lang in Languages then Some(lang) else None
    ensures forall k | k != PreferenceKey :: GetItem(r, k) == GetItem(area, k)
  {
    SetItem(area, PreferenceKey, lang)
  }

  // ----- Fetching and validating a translation file -----

  /** The required sections that are missing (falsy) in `payload`, in the order listed. */
  function MissingSections(payload: Json, sections: seq<string>): (missing: seq<string>)
    ensures forall sec :: sec in missing <==> sec in sections && !Truthy(Property(Defined(payload), sec))
    ensures |missing| <= |sections|
  {
    if |sections| == 0 then []
    else
      var rest := MissingSections(payload, sections[1..]);
      if !Truthy(Property(Defined(payload), sections[0])) then [sections[0]] + rest else rest
  }

  datatype LoadError = HttpFailure | InvalidFormat

  /** `validateTranslations(translations, lang)`: throws unless the payload is an object
      (arrays included, `null` excluded); missing sections only produce a warning, which is
      the list answered here. */
  function ValidateTranslations(payload: Json): (r: Result<seq<string>, LoadError>)
    ensures r.Err? <==> !IsObjectLike(payload)
    ensures r.Ok? ==> forall sec :: sec in r.value <==> sec in RequiredSections && !Truthy(Property(Defined(payload), sec))
  {
    if !IsObjectLike(payload) then Err(InvalidFormat)
    else Ok(MissingSections(payload, RequiredSections))
  }

  /** `fetchTranslations(lang)`: the parsed file, or the error it throws. */
  function FetchTranslations(fetch: Fetcher, lang: string): (r: Result<Json, LoadError>)
    ensures r.Ok? <==> fetch(lang).Some? && IsObjectLike(fetch(lang).value)
    ensures r.Ok? ==> r.value == fetch(lang).value
  {
    match fetch(lang)
    case None => Err(HttpFailure)
    case Some(payload) =>
      match ValidateTranslations(payload)
      case Err(e) => Err(e)
      case Ok(_) => Ok(payload)
  }

  // ----- The manager's state and loadLanguage -----

  datatype CacheEntry = CacheEntry(data: Json, timestamp: int)

  /** The fields of a `TranslationManager`. `cacheOrder` is the insertion order of the `cache`
      Map's keys; `requests` logs every fetch started, oldest first. */
  datatype Store = Store(
    current: string,
    translations: map<string, Json>,
    cache: map<string, CacheEntry>,
    cacheOrder: seq<string>,
    loading: set<string>,
    requests: seq<string>,
    initialized: bool)

  /** What the constructor sets up before `init` runs. */
  const Initial: Store := Store(Default, map[], map[], [], {}, [], false)

  /** What a `loadLanguage` promise settles to. */
  datatype LoadResult = Loaded(data: Json) | Failed

  function Outcome(r: Result<Json, LoadError>): (o: LoadResult)
    ensures o.Loaded? <==> r.Ok?
    ensures o.Loaded? ==> o.data == r.value
  {
    match r
    case Ok(data) => Loaded(data)
    case Err(_) => Failed
  }

  /** A cache entry for `lang` younger than the maximum age. */
  predicate Fresh(s: Store, lang: string, now: int) {
    lang in s.cache && now - s.cache[lang].timestamp < MaxAge
  }

  /** `loadLanguage(lang)` run to completion at time `now`. A fresh cache entry is copied into
      `translations` and returned. A language already in flight is joined: the caller gets that
      fetch's outcome and nothing else happens. Otherwise a fetch starts; on success the entry
      is cached with timestamp `now` and stored in `translations`; on failure a language other
      than the default falls back to loading the default, and the default's own failure is
      rethrown. Either way the language leaves `loading` when its fetch settles. */
  function Load(s: Store, lang: string, now: int, fetch: Fetcher): (Store, LoadResult)
    decreases if lang == Default then 0 else 1
  {
    if Fresh(s, lang, now) then
      var data := s.cache[lang].data;
      (s.(translations := s.translations[lang := data]), Loaded(data))
    else if lang in s.loading then
      (s, Outcome(FetchTranslations(fetch, lang)))
    else
      var started := s.(loading := s.loading + {lang}, requests := s.requests + [lang]);
      match FetchTranslations(fetch, lang)
      case Ok(data) =>
        var order := if lang in s.cache then s.cacheOrder else s.cacheOrder + [lang];
        (started.(cache := s.cache[lang := CacheEntry(data, now)], cacheOrder := order,
                  translations := s.translations[lang := data], loading := s.loading),
         Loaded(data))
      case Err(_) =>
        if lang != Default then
          var (after, r) := Load(started, Default, now, fetch);
          (after.(loading := after.loading - {lang}), r)
        else
          (started.(loading := s.loading), Failed)
  }

  /** `cacheOrder` lists the cached languages, each once. */
  ghost predicate CacheListed(s: Store) {
    (forall lang :: lang in s.cache <==> lang in s.cacheOrder) &&
    (forall i, j | 0 <= i < j < |s.cacheOrder| :: s.cacheOrder[i] != s.cacheOrder[j])
  }

  /** `loadLanguage` keeps the current language and the in-flight set as they were (every fetch
      it starts has settled when it returns), keeps the cache listing consistent, and only
      appends to the fetch log. */
  lemma {:induction false} LoadFrame(s: Store, lang: string, now: int, fetch: Fetcher)
    ensures Load(s, lang, now, fetch).0.current == s.current
    ensures Load(s, lang, now, fetch).0.initialized == s.initialized
    ensures Load(s, lang, now, fetch).0.loading == s.loading
    ensures |s.requests| <= |Load(s, lang, now, fetch).0.requests|
    ensures Load(s, lang, now, fetch).0.requests[..|s.requests|] == s.requests
    ensures CacheListed(s) ==> CacheListed(Load(s, lang, now, fetch).0)
    decreases if lang == Default then 0 else 1
  {
    if !Fresh(s, lang, now) && lang !in s.loading && FetchTranslations(fetch, lang).Err? && lang != Default {
      var started := s.(loading := s.loading + {lang}, requests := s.requests + [lang]);
      LoadFrame(started, Default, now, fetch);
      var after := Load(started, Default, now, fetch).0;
      assert after.requests[..|s.requests|] == started.requests[..|s.requests|];
    }
  }

  /** A cache entry younger than the maximum age answers without a fetch and is copied into
      `translations`; nothing else changes. */
  lemma LoadFromFreshCache(s: Store, lang: string, now: int, fetch: Fetcher)
    requires Fresh(s, lang, now)
    ensures Load(s, lang, now, fetch).1 == Loaded(s.cache[lang].data)
    ensures Load(s, lang, now, fetch).0 == s.(translations := s.translations[lang := s.cache[lang].data])
  {
  }

  /** A language whose fetch is in flight is joined: no second fetch starts, the state is left
      alone, and the caller gets that fetch's own outcome. */
  lemma LoadJoinsPending(s: Store, lang: string, now: int, fetch: Fetcher)
    requires !Fresh(s, lang, now) && lang in s.loading
    ensures Load(s, lang, now, fetch).0 == s
    ensures Load(s, lang, now, fetch).1.Loaded? <==> FetchTranslations(fetch, lang).Ok?
    ensures Load(s, lang, now, fetch).1.Loaded? ==> Load(s, lang, now, fetch).1.data == fetch(lang).value
  {
  }

  /** A successful fetch is cached with timestamp `now` (replacing any stale entry), stored in
      `translations` and returned; exactly one fetch was started. */
  lemma LoadSuccessCaches(s: Store, lang: string, now: int, fetch: Fetcher)
    requires !Fresh(s, lang, now) && lang !in s.loading
    requires FetchTranslations(fetch, lang).Ok?
    ensures var (s', r) := Load(s, lang, now, fetch);
      r == Loaded(fetch(lang).value) &&
      s'.cache == s.cache[lang := CacheEntry(fetch(lang).value, now)] &&
      s'.translations == s.translations[lang := fetch(lang).value] &&
      s'.requests == s.requests + [lang] &&
      Fresh(s', lang, now)
  {
  }

  /** A failed fetch of a language other than the default is answered by loading the default,
      while the failed language still counts as in flight. */
  lemma LoadFailureFallsBack(s: Store, lang: string, now: int, fetch: Fetcher)
    requires !Fresh(s, lang, now) && lang !in s.loading
    requires FetchTranslations(fetch, lang).Err? && lang != Default
    ensures var started := s.(loading := s.loading + {lang}, requests := s.requests + [lang]);
      Load(s, lang, now, fetch).1 == Load(started, Default, now, fetch).1 &&
      Load(s, lang, now, fetch).0.cache == Load(started, Default, now, fetch).0.cache
    ensures Load(s, lang, now, fetch).0.requests[|s.requests|] == lang
    ensures Default !in s.loading && Load(s, lang, now, fetch).1.Loaded? ==>
              Default in Load(s, lang, now, fetch).0.translations
    ensures lang !in s.translations ==> lang !in Load(s, lang, now, fetch).0.translations
  {
    var started := s.(loading := s.loading + {lang}, requests := s.requests + [lang]);
    LoadFrame(started, Default, now, fetch);
    if lang !in s.translations {
      LoadFallbackKeepsOthers(started, lang, now, fetch);
    }
  }

  /** When the default language itself fails to load, the failure is rethrown and nothing is
      cached. */
  lemma LoadDefaultFailureRejects(s: Store, now: int, fetch: Fetcher)
    requires !Fresh(s, Default, now) && Default !in s.loading
    requires FetchTranslations(fetch, Default).Err?
    ensures Load(s, Default, now, fetch).1 == Failed
    ensures Load(s, Default, now, fetch).0 == s.(requests := s.requests + [Default])
  {
  }

  /** A load that fetched successfully makes a second load within the maximum age a cache hit:
      the second call starts no fetch and returns the same table. */
  lemma LoadTwiceFetchesOnce(s: Store, lang: string, now: int, later: int, fetch: Fetcher)
    requires !Fresh(s, lang, now) && lang !in s.loading
    requires FetchTranslations(fetch, lang).Ok?
    requires later - now < MaxAge
    ensures var first := Load(s, lang, now, fetch).0;
      Load(first, lang, later, fetch).0.requests == first.requests &&
      Load(first, lang, later, fetch).1 == Load(s, lang, now, fetch).1
  {
    var first := Load(s, lang, now, fetch).0;
    LoadSuccessCaches(s, lang, now, fetch);
    assert Fresh(first, lang, later);
  }

  // ----- changeLanguage, init, t -----

  /** `changeLanguage(lang)`: nothing for the current or an unsupported language. Otherwise the
      language is loaded; if the load throws, the error is shown and the current language stays;
      if it resolves (possibly with the default's table substituted), `lang` becomes current and
      is saved as the preference. */
  function SwitchLanguage(s: Store, area: StorageArea, lang: string, now: int, fetch: Fetcher): (Store, StorageArea)
  {
    if lang == s.current || lang !in Languages then (s, area)
    else
      var (loaded, r) := Load(s, lang, now, fetch);
      if r.Loaded? then (loaded.(current := lang), SaveLanguagePreference(area, lang))
      else (loaded, area)
  }

  /** Asking for the current or an unsupported language changes nothing at all. */
  lemma SwitchLanguageGuard(s: Store, area: StorageArea, lang: string, now: int, fetch: Fetcher)
    requires lang == s.current || lang !in Languages
    ensures SwitchLanguage(s, area, lang, now, fetch) == (s, area)
  {
  }

  /** After a successful change the current language and the saved preference are both `lang`;
      after a failed one the current language and storage are unchanged. */
  lemma SwitchLanguageOutcome(s: Store, area: StorageArea, lang: string, now: int, fetch: Fetcher)
    requires lang != s.current && lang in Languages
    ensures var (s', area') := SwitchLanguage(s, area, lang, now, fetch);
      if Load(s, lang, now, fetch).1.Loaded? then
        s'.current == lang && (area.available ==> LoadLanguagePreference(area') == Some(lang))
      else
        s'.current == s.current && area' == area
  {
    LoadFrame(s, lang, now, fetch);
  }

  /** The table `updatePageContent` would apply: `translations[currentLanguage]` when truthy. */
  function PageContent(s: Store): (t: Option<Json>)
    ensures t.Some? <==> s.current in s.translations && Truthy(Defined(s.translations[s.current]))
    ensures t.Some? ==> t.value == s.translations[s.current]
  {
    if s.current in s.translations && Truthy(Defined(s.translations[s.current])) then
      Some(s.translations[s.current])
    else None
  }

  /** The substitution quirk: when `lang`'s file fails but the default loads, `changeLanguage`
      still makes `lang` current although no table for it exists, so the page is not updated. */
  lemma SwitchLanguageAfterFallback(s: Store, area: StorageArea, lang: string, now: int, fetch: Fetcher)
    requires lang != s.current && lang in Languages && lang != Default
    requires lang !in s.translations && lang !in s.loading && !Fresh(s, lang, now)
    requires FetchTranslations(fetch, lang).Err? && FetchTranslations(fetch, Default).Ok?
    ensures SwitchLanguage(s, area, lang, now, fetch).0.current == lang
    ensures lang !in SwitchLanguage(s, area, lang, now, fetch).0.translations
    ensures PageContent(SwitchLanguage(s, area, lang, now, fetch).0) == None
  {
    var started := s.(loading := s.loading + {lang}, requests := s.requests + [lang]);
    assert Load(started, Default, now, fetch).1.Loaded?;
    LoadFallbackKeepsOthers(started, lang, now, fetch);
  }

  /** Loading the default never adds a table for another language. */
  lemma LoadFallbackKeepsOthers(s: Store, lang: string, now: int, fetch: Fetcher)
    requires lang != Default && lang !in s.translations
    ensures lang !in Load(s, Default, now, fetch).0.translations
  {
  }

  /** `init()`: the saved preference, else the detected browser language, is loaded. When that
      load throws, or `navigator.language || navigator.userLanguage` (`browserLang`) is
      `undefined` so that detection throws, the catch falls back to the default language and
      the manager stays uninitialised. */
  function Startup(s: Store, browserLang: Option<string>, area: StorageArea, now: int, fetch: Fetcher): (r: Store)
    requires !s.initialized
    ensures r.current in Languages || r.current == s.current
    ensures r.initialized ==> browserLang.Some? && r.current == LoadLanguagePreference(area).GetOr(DetectBrowserLanguage(browserLang.value))
    ensures browserLang.Some? ==>
              var lang := LoadLanguagePreference(area).GetOr(DetectBrowserLanguage(browserLang.value));
              (r.initialized <==> Load(s.(current := lang), lang, now, fetch).1.Loaded?)
    ensures !r.initialized ==> r.current == Default
    ensures browserLang.None? ==> r == s.(current := Default)
  {
    match browserLang
    case None => s.(current := Default)
    case Some(b) =>
      var lang := LoadLanguagePreference(area).GetOr(DetectBrowserLanguage(b));
      var (loaded, r) := Load(s.(current := lang), lang, now, fetch);
      LoadFrame(s.(current := lang), lang, now, fetch);
      if r.Loaded? then loaded.(initialized := true) else loaded.(current := Default)
  }

  /** Whatever happens during start-up, the current language ends up supported. */
  lemma StartupLanguageSupported(s: Store, browserLang: Option<string>, area: StorageArea, now: int, fetch: Fetcher)
    requires !s.initialized
    ensures Startup(s, browserLang, area, now, fetch).current in Languages
  {
    if browserLang.Some? {
      var lang := LoadLanguagePreference(area).GetOr(DetectBrowserLanguage(browserLang.value));
      LoadFrame(s.(current := lang), lang, now, fetch);
    }
  }

  /** `getNestedTranslation(translations, key)` for the key already split on '.':
      `reduce((obj, part) => obj && obj[part], translations)`. A falsy value is carried
      through unchanged. */
  function Walk(obj: JsValue, parts: seq<string>): JsValue
    decreases |parts|
  {
    if |parts| == 0 then obj
    else Walk(if Truthy(obj) then Property(obj, parts[0]) else obj, parts[1..])
  }

  function GetNestedTranslation(table: JsValue, key: string): JsValue {
    Walk(table, Split(key, '.'))
  }

  /** Strict nested lookup through objects only, the reference the walk is compared with. */
  function PathLookup(j: Json, parts: seq<string>): Option<Json>
    decreases |parts|
  {
    if |parts| == 0 then Some(j)
    else match j
      case JObject(fields) => if parts[0] in fields then PathLookup(fields[parts[0]], parts[1..]) else None
      case _ => None
  }

  /** Once the walk meets a falsy value it stays falsy. */
  lemma {:induction false} WalkFalsyStays(obj: JsValue, parts: seq<string>)
    requires !Truthy(obj)
    ensures Walk(obj, parts) == obj
    decreases |parts|
  {
    if |parts| > 0 {
      WalkFalsyStays(obj, parts[1..]);
    }
  }

  /** The walk yields a truthy value exactly when every segment is found through objects and
      the value at the end is truthy, and then it is that value: any missing segment, and any
      falsy value on the way, gives a falsy result. */
  lemma {:induction false} WalkMatchesPath(j: Json, parts: seq<string>)
    ensures Truthy(Walk(Defined(j), parts)) <==>
              PathLookup(j, parts).Some? && Truthy(Defined(PathLookup(j, parts).value))
    ensures Truthy(Walk(Defined(j), parts)) ==> Walk(Defined(j), parts) == Defined(PathLookup(j, parts).value)
    decreases |parts|
  {
    if |parts| > 0 {
      var obj := Defined(j);
      if !Truthy(obj) {
        WalkFalsyStays(obj, parts[1..]);
        assert PathLookup(j, parts) == None;
      } else {
        var next := Property(obj, parts[0]);
        if next == Undefined {
          WalkFalsyStays(Undefined, parts[1..]);
        } else {
          WalkMatchesPath(next.v, parts[1..]);
        }
      }
    }
  }

  /** A missing table for the current language makes every lookup falsy. */
  lemma WalkUndefined(parts: seq<string>)
    ensures Walk(Undefined, parts) == Undefined
  {
    WalkFalsyStays(Undefined, parts);
  }

  /** The table of the current language, `undefined` when it was never loaded. */
  function CurrentTable(s: Store): JsValue {
    if s.current in s.translations then Defined(s.translations[s.current]) else Undefined
  }

  /** `text.replace` on a value that is not a string throws a TypeError. */
  datatype TranslateError = NotAString

  /** `t(key, params)`: the key itself when the lookup is falsy; the interpolated string when it
      is a string; a TypeError for any other truthy value. */
  function T(s: Store, key: string, params: map<string, string>): (r: Result<string, TranslateError>)
    ensures !Truthy(GetNestedTranslation(CurrentTable(s), key)) ==> r == Ok(key)
    ensures r.Err? <==> Truthy(GetNestedTranslation(CurrentTable(s), key)) && !GetNestedTranslation(CurrentTable(s), key).v.JString?
  {
    var translation := GetNestedTranslation(CurrentTable(s), key);
    if !Truthy(translation) then Ok(key)
    else match translation.v
      case JString(text) => Ok(Interpolate(text, params))
      case _ => Err(NotAString)
  }

  /** A key whose segments lead through objects to a non-empty string is translated and
      interpolated; a key with any missing segment comes back as itself. */
  lemma TranslateByPath(s: Store, key: string, params: map<string, string>)
    requires s.current in s.translations
    ensures var found := PathLookup(s.translations[s.current], Split(key, '.'));
      (found.Some? && found.value.JString? && found.value.s != "" ==>
        T(s, key, params) == Ok(Interpolate(found.value.s, params))) &&
      (found.None? ==> T(s, key, params) == Ok(key))
  {
    WalkMatchesPath(s.translations[s.current], Split(key, '.'));
  }

  /** Before any table for the current language is loaded, every key comes back as itself. */
  lemma TranslateWithoutTable(s: Store, key: string, params: map<string, string>)
    requires s.current !in s.translations
    ensures T(s, key, params) == Ok(key)
  {
    WalkUndefined(Split(key, '.'));
  }

  // ----- clearCache, getCacheStats -----

  /** `clearCache()`: the cache is emptied; tables already in `translations` stay. */
  function Cleared(s: Store): (r: Store)
    ensures r.cache == map[] && CacheListed(r)
    ensures r.translations == s.translations && r.loading == s.loading && r.current == s.current
  {
    s.(cache := map[], cacheOrder := [])
  }

  /** After `clearCache`, loading a language that is not in flight fetches it again. */
  lemma LoadAfterClearFetches(s: Store, lang: string, now: int, fetch: Fetcher)
    requires lang !in s.loading
    ensures var r := Load(Cleared(s), lang, now, fetch).0.requests;
      |r| > |s.requests| && r[|s.requests|] == lang
  {
    LoadFrame(Cleared(s), lang, now, fetch);
  }

  datatype CacheStats = CacheStats(size: nat, languages: seq<string>, memoryUsage: nat)

  /** `getCacheStats()`: the number of cached languages, the languages in insertion order, and
      the rough estimate of 1024 bytes per entry. */
  function GetCacheStats(s: Store): CacheStats {
    CacheStats(|s.cache|, s.cacheOrder, |s.cache| * 1024)
  }

  /** The statistics list every cached language exactly once, so the reported size is the
      length of the list, and the memory estimate is 1024 bytes per listed language. */
  lemma CacheStatsConsistent(s: Store)
    requires CacheListed(s)
    ensures var r := GetCacheStats(s);
      |r.languages| == r.size && r.memoryUsage == 1024 * |r.languages| &&
      forall lang :: lang in r.languages <==> lang in s.cache
  {
    DistinctCount(s.cacheOrder, s.cache.Keys);
  }

  /** A sequence without repetitions has as many elements as the set it lists. */
  lemma {:induction false} DistinctCount(xs: seq<string>, keys: set<string>)
    requires forall x :: x in keys <==> x in xs
    requires forall i, j | 0 <= i < j < |xs| :: xs[i] != xs[j]
    ensures |keys| == |xs|
    decreases |xs|
  {
    if |xs| > 0 {
      var rest := keys - {xs[0]};
      forall x
        ensures x in rest <==> x in xs[1..]
      {
        if x in xs[1..] {
          var k :| 1 <= k < |xs| && xs[k] == x;
          assert xs[0] != xs[k];
        }
        if x in keys && x != xs[0] {
          var k :| 0 <= k < |xs| && xs[k] == x;
          assert k != 0;
          assert xs[1..][k - 1] == x;
        }
      }
      DistinctCount(xs[1..], rest);
    }
  }

  // ----- The manager object -----

  class TranslationManager {
    var current: string
    var translations: map<string, Json>
    var cache: map<string, CacheEntry>
    var cacheOrder: seq<string>
    var loading: set<string>
    var requests: seq<string>
    var initialized: bool

    function State(): Store
      reads this
    {
      Store(current, translations, cache, cacheOrder, loading, requests, initialized)
    }

    /** The fields as the constructor sets them before `init` runs. */
    constructor ()
      ensures State() == Initial
    {
      current := Default;
      translations := map[];
      cache := map[];
      cacheOrder := [];
      loading := {};
      requests := [];
      initialized := false;
    }

    method LoadLanguage(lang: string, now: int, fetch: Fetcher) returns (r: LoadResult)
      modifies this
      ensures (State(), r) == Load(old(State()), lang, now, fetch)
      decreases if lang == Default then 0 else 1
    {
      if lang in cache && now - cache[lang].timestamp < MaxAge {
        var cached := cache[lang];
        translations := translations[lang := cached.data];
        return Loaded(cached.data);
      }
      if lang in loading {
        return Outcome(FetchTranslations(fetch, lang));
      }
      var pending := FetchTranslations(fetch, lang);
      loading := loading + {lang};
      requests := requests + [lang];
      match pending {
        case Ok(data) =>
          if lang !in cache {
            cacheOrder := cacheOrder + [lang];
          }
          cache := cache[lang := CacheEntry(data, now)];
          translations := translations[lang := data];
          r := Loaded(data);
        case Err(_) =>
          if lang != Default {
            r := LoadLanguage(Default, now, fetch);
          } else {
            r := Failed;
          }
      }
      loading := loading - {lang};
    }

    method ChangeLanguage(lang: string, now: int, fetch: Fetcher, storage: LocalStorage)
      modifies this, storage
      ensures (State(), storage.Area()) == SwitchLanguage(old(State()), old(storage.Area()), lang, now, fetch)
    {
      if lang == current || lang !in Languages {
        return;
      }
      var r := LoadLanguage(lang, now, fetch);
      if r.Loaded? {
        current := lang;
        var _ := storage.Put(PreferenceKey, lang);
      }
    }

    method Init(browserLang: Option<string>, storage: LocalStorage, now: int, fetch: Fetcher)
      requires !initialized
      modifies this
      ensures State() == Startup(old(State()), browserLang, storage.Area(), now, fetch)
    {
      if browserLang.None? {
        current := Default;
        return;
      }
      var detected := DetectBrowserLanguage(browserLang.value);
      var saved := LoadLanguagePreference(storage.Area());
      current := saved.GetOr(detected);
      var r := LoadLanguage(current, now, fetch);
      if r.Loaded? {
        initialized := true;
      } else {
        current := Default;
      }
    }

    method ClearCache()
      modifies this
      ensures State() == Cleared(old(State()))
    {
      cache := map[];
      cacheOrder := [];
    }
  }
}

=== FILE: site_widgets.dfy ===
/** Three small pieces of the first site's script (assets/js/main.js): the thousands separator
    of the statistics counter, the countdown's day/hour/minute decomposition, and the FAQ
    accordion that keeps at most one answer open. */
module SiteWidgets {
  import opened Text

  // ----- Thousands separator: s.replace(/\B(?=(\d{3})+(?!\d))/g, '.') -----

  /** The regular expression matches at position `p` of a digit string exactly when `p` lies
      strictly inside the string (`\B` between two digits) and the digits after it come in
      whole groups of three up to the end (`(\d{3})+(?!\d)`). */
  predicate DotBefore(s: string, p: int) {
    1 <= p < |s| && (|s| - p) % 3 == 0
  }

  /** The global replace, scanning left to right from position `p`: a dot is inserted at every
      matching position and every character is copied. */
  function ScanFrom(s: string, p: nat): string
    requires p <= |s|
    decreases |s| - p
  {
    if p == |s| then ""
    else (if DotBefore(s, p) then "." else "") + [s[p]] + ScanFrom(s, p + 1)
  }

  function FormatThousands(digits: string): string {
    ScanFrom(digits, 0)
  }

  /** Grouping by threes from the right, the reference the formatter is compared with. */
  function Grouped(s: string): string
    decreases |s|
  {
    if |s| <= 3 then s else Grouped(s[..|s| - 3]) + "." + s[|s| - 3..]
  }

  /** Deleting every dot. */
  function RemoveDots(s: string): (r: string)
    ensures '.' !in r
    ensures |r| <= |s|
    decreases |s|
  {
    if |s| == 0 then "" else (if s[0] == '.' then "" else [s[0]]) + RemoveDots(s[1..])
  }

  lemma {:induction false} RemoveDotsAppend(a: string, b: string)
    ensures RemoveDots(a + b) == RemoveDots(a) + RemoveDots(b)
    decreases |a|
  {
    if |a| > 0 {
      assert (a + b)[1..] == a[1..] + b;
      RemoveDotsAppend(a[1..], b);
    } else {
      assert a + b == b;
    }
  }

  lemma {:induction false} RemoveDotsNone(s: string)
    requires '.' !in s
    ensures RemoveDots(s) == s
    decreases |s|
  {
    if |s| > 0 {
      assert s[0] in s;
      assert forall c | c in s[1..] :: c in s;
      RemoveDotsNone(s[1..]);
      assert s == [s[0]] + s[1..];
    }
  }

  /** In a string of at most three characters no position matches. */
  lemma {:induction false} ScanShort(s: string, p: nat)
    requires p <= |s| <= 3
    ensures ScanFrom(s, p) == s[p..]
    decreases |s| - p
  {
    if p < |s| {
      assert !DotBefore(s, p);
      ScanShort(s, p + 1);
      assert s[p..] == [s[p]] + s[p + 1..];
    }
  }

  /** The last three characters: one dot in front of them and none inside. */
  lemma ScanLastGroup(a: string, b: string)
    requires |a| >= 1 && |b| == 3
    ensures ScanFrom(a + b, |a|) == "." + b
  {
    var s, p := a + b, |a|;
    assert !DotBefore(s, p + 2) && ScanFrom(s, p + 3) == "";
    assert ScanFrom(s, p + 2) == [b[2]];
    assert !DotBefore(s, p + 1) && ScanFrom(s, p + 1) == [b[1]] + [b[2]];
    assert DotBefore(s, p) && ScanFrom(s, p) == "." + [b[0]] + ([b[1]] + [b[2]]);
    assert b == [b[0]] + [b[1]] + [b[2]];
  }

  /** Appending three characters keeps every earlier match and adds one in front of them. */
  lemma {:induction false} ScanAppendGroup(a: string, b: string, p: nat)
    requires |a| >= 1 && |b| == 3 && p <= |a|
    ensures ScanFrom(a + b, p) == ScanFrom(a, p) + "." + b
    decreases |a| - p
  {
    var s := a + b;
    if p == |a| {
      assert ScanFrom(a, p) == "";
      ScanLastGroup(a, b);
    } else {
      assert (|s| - p) % 3 == (|a| - p) % 3 by { ModShiftThree(|a| - p); }
      var dot := if DotBefore(a, p) then "." else "";
      assert DotBefore(s, p) == DotBefore(a, p) && s[p] == a[p];
      ScanAppendGroup(a, b, p + 1);
      calc {
        ScanFrom(s, p);
        dot + [a[p]] + ScanFrom(s, p + 1);
        dot + [a[p]] + (ScanFrom(a, p + 1) + "." + b);
        (dot + [a[p]] + ScanFrom(a, p + 1)) + "." + b;
        ScanFrom(a, p) + "." + b;
      }
    }
  }

  lemma ModShiftThree(x: int)
    requires x >= 0
    ensures (x + 3) % 3 == x % 3
  {
  }

  /** The regular expression inserts exactly the dots of grouping by threes from the right. */
  lemma {:induction false} FormatIsGrouping(s: string)
    ensures FormatThousands(s) == Grouped(s)
    decreases |s|
  {
    if |s| <= 3 {
      ScanShort(s, 0);
    } else {
      var a, b := s[..|s| - 3], s[|s| - 3..];
      assert s == a + b;
      ScanAppendGroup(a, b, 0);
      FormatIsGrouping(a);
    }
  }

  /** Removing the dots gives back the digits: the separator loses nothing. */
  lemma {:induction false} RemoveDotsGrouped(s: string)
    requires '.' !in s
    ensures RemoveDots(Grouped(s)) == s
    decreases |s|
  {
    if |s| <= 3 {
      RemoveDotsNone(s);
    } else {
      var a, b := s[..|s| - 3], s[|s| - 3..];
      assert s == a + b;
      NoDotInParts(a, b);
      RemoveDotsGrouped(a);
      RemoveDotsAppend(Grouped(a) + ".", b);
      RemoveDotsAppend(Grouped(a), ".");
      RemoveDotsNone(b);
      assert RemoveDots(".") == "";
      calc {
        RemoveDots(Grouped(s));
        RemoveDots(Grouped(a) + "." + b);
        RemoveDots(Grouped(a)) + RemoveDots(".") + RemoveDots(b);
        a + b;
      }
    }
  }

  /** A string without dots splits into two without dots. */
  lemma NoDotInParts(a: string, b: string)
    requires '.' !in a + b
    ensures '.' !in a && '.' !in b
  {
    assert forall i | 0 <= i < |a| :: a[i] == (a + b)[i];
    assert forall i | 0 <= i < |b| :: b[i] == (a + b)[|a| + i];
  }

  /** `'$' + target.toString().replace(…)` for the final value of a counter. */
  function CounterText(target: nat): string {
    "$" + FormatThousands(DecimalString(target))
  }

  /** The counter's text is "$" followed by the grouped digits, and reading it back without the
      dollar sign and the dots gives the target. */
  lemma CounterTextReadsBack(target: nat)
    ensures CounterText(target)[0] == '$'
    ensures var body := RemoveDots(CounterText(target)[1..]);
      AllDigits(body) && DecimalValue(body) == target
  {
    var digits := DecimalString(target);
    assert forall c | c in digits :: IsDigit(c);
    FormatIsGrouping(digits);
    RemoveDotsGrouped(digits);
    assert CounterText(target)[1..] == FormatThousands(digits);
    DecimalRoundTrip(target);
  }

  // ----- Countdown -----

  const MinuteMs: int := 60 * 1000
  const HourMs: int := 60 * MinuteMs
  const DayMs: int := 24 * HourMs
  /** The "+3 hours for Turkey" added to the event time and to the clock. */
  const TurkeyOffsetMs: int := 3 * HourMs

  /** `eventTimestamp - nowTurkey`, both shifted by the same three hours. */
  function Distance(eventLocal: int, now: int): (d: int)
    ensures d == eventLocal - now
  {
    var eventTimestamp := eventLocal + TurkeyOffsetMs;
    var nowTurkey := now + TurkeyOffsetMs;
    eventTimestamp - nowTurkey
  }

  datatype Remaining = Remaining(days: nat, hours: nat, minutes: nat)

  /** `Math.floor(d / day)`, `Math.floor((d % day) / hour)`, `Math.floor((d % hour) / minute)`
      for a non-negative distance, where JavaScript's `%` and Dafny's agree. */
  function Decompose(d: nat): (r: Remaining)
    ensures r.hours < 24 && r.minutes < 60
    ensures var whole := r.days * DayMs + r.hours * HourMs + r.minutes * MinuteMs;
      whole <= d < whole + MinuteMs
  {
    var r := Remaining(d / DayMs, (d % DayMs) / HourMs, (d % HourMs) / MinuteMs);
    DecomposeSound(d);
    r
  }

  lemma DecomposeSound(d: nat)
    ensures (d % DayMs) / HourMs < 24 && (d % HourMs) / MinuteMs < 60
    ensures var whole := (d / DayMs) * DayMs + ((d % DayMs) / HourMs) * HourMs + ((d % HourMs) / MinuteMs) * MinuteMs;
      whole <= d < whole + MinuteMs
  {
    var days, inDay := d / DayMs, d % DayMs;
    assert d == days * DayMs + inDay;
    var hours, inHour := inDay / HourMs, inDay % HourMs;
    assert inDay == hours * HourMs + inHour;
    assert hours < 24 by { DivBound(inDay, HourMs, 24); }
    assert d == (days * 24 + hours) * HourMs + inHour;
    assert d % HourMs == inHour by { ModOfMultiplePlus(days * 24 + hours, HourMs, inHour); }
    var minutes := inHour / MinuteMs;
    assert inHour == minutes * MinuteMs + inHour % MinuteMs;
    assert minutes < 60 by { DivBound(inHour, MinuteMs, 60); }
  }

  lemma DivBound(x: nat, n: int, k: nat)
    requires n > 0 && x < k * n
    ensures x / n < k
  {
  }

  lemma MulAtLeast(k: int, n: int)
    requires n > 0 && k >= 1
    ensures n * k >= n
  {
  }

  lemma MulAtMost(k: int, n: int)
    requires n > 0 && k <= -1
    ensures n * k <= -n
  {
  }

  /** Division by `n` is unique: a multiple of `n` plus a remainder below `n` leaves that
      remainder. */
  lemma ModOfMultiplePlus(q: int, n: int, r: int)
    requires n > 0 && 0 <= r < n
    ensures (q * n + r) % n == r
  {
    var x := q * n + r;
    var k := x / n - q;
    assert n * k == r - x % n;
    if k >= 1 { MulAtLeast(k, n); } else if k <= -1 { MulAtMost(k, n); }
  }

  /** `String(v).padStart(2, '0')`. */
  function Field(v: nat): string {
    PadStart(DecimalString(v), 2, '0')
  }

  /** A leading zero does not change the value of a digit string. */
  lemma {:induction false} LeadingZeroValue(s: string)
    requires AllDigits(s)
    ensures AllDigits("0" + s) && DecimalValue("0" + s) == DecimalValue(s)
    decreases |s|
  {
    if |s| > 0 {
      var t := "0" + s;
      assert t[..|t| - 1] == "0" + s[..|s| - 1];
      LeadingZeroValue(s[..|s| - 1]);
    }
  }

  /** Each field has at least two digits, exactly two below 100, and reads back as its value. */
  lemma FieldReadsBack(v: nat)
    ensures |Field(v)| >= 2 && AllDigits(Field(v)) && DecimalValue(Field(v)) == v
    ensures v < 100 ==> |Field(v)| == 2
  {
    var s := DecimalString(v);
    DecimalRoundTrip(v);
    if |s| < 2 {
      assert Field(v) == "0" + s;
      LeadingZeroValue(s);
    }
    if v < 100 {
      DecimalStringShort(v);
    }
  }

  lemma DecimalStringShort(v: nat)
    requires v < 100
    ensures |DecimalString(v)| <= 2
  {
  }

  datatype CountdownText = CountdownText(days: string, hours: string, minutes: string)

  /** `updateCountdown()`: "00" everywhere once the event has passed; otherwise the remaining
      days, hours and minutes, each padded to two digits. */
  function UpdateCountdown(eventLocal: int, now: int): CountdownText {
    var distance := Distance(eventLocal, now);
    if distance < 0 then CountdownText("00", "00", "00")
    else
      var r := Decompose(distance);
      CountdownText(Field(r.days), Field(r.hours), Field(r.minutes))
  }

  /** The two three-hour shifts cancel: only the time left matters. After the event every field
      is "00"; before it the hour and minute fields are two digits that read back below 24 and
      60, and the three values account for the time left to within a minute. */
  lemma CountdownFields(eventLocal: int, now: int, shift: int)
    ensures UpdateCountdown(eventLocal + shift, now + shift) == UpdateCountdown(eventLocal, now)
    ensures now > eventLocal ==> UpdateCountdown(eventLocal, now) == CountdownText("00", "00", "00")
    ensures now <= eventLocal ==>
      var t := UpdateCountdown(eventLocal, now);
      var r := Decompose(eventLocal - now);
      |t.hours| == 2 && |t.minutes| == 2 && |t.days| >= 2 &&
      AllDigits(t.hours) && DecimalValue(t.hours) == r.hours && r.hours < 24 &&
      AllDigits(t.minutes) && DecimalValue(t.minutes) == r.minutes && r.minutes < 60 &&
      AllDigits(t.days) && DecimalValue(t.days) == r.days &&
      r.days * DayMs + r.hours * HourMs + r.minutes * MinuteMs <= eventLocal - now
  {
    if now <= eventLocal {
      var r := Decompose(eventLocal - now);
      FieldReadsBack(r.days);
      FieldReadsBack(r.hours);
      FieldReadsBack(r.minutes);
    }
  }

  // ----- FAQ accordion -----

  /** The open flags after `toggleFAQ` on item `k`: every item closed, then `k` opened if it was
      closed before. */
  function Toggled(open: seq<bool>, k: nat): (r: seq<bool>)
    requires k < |open|
    ensures |r| == |open|
    ensures r[k] == !open[k]
    ensures forall i | 0 <= i < |r| && i != k :: !r[i]
    ensures forall i, j | 0 <= i < j < |r| :: !(r[i] && r[j])
  {
    seq(|open|, i requires 0 <= i < |open| => i == k && !open[k])
  }

  /** Toggling the same item twice from a state where it is the only open one, or nothing is
      open, gives that state back. */
  lemma ToggleTwice(open: seq<bool>, k: nat)
    requires k < |open| && forall i | 0 <= i < |open| && i != k :: !open[i]
    ensures Toggled(Toggled(open, k), k) == open
  {
  }

  /** `toggleFAQ(button)` on item `k` (the `open` class and `aria-expanded` move together):
      read whether it was expanded, close every item, then open it if it was not. */
  method ToggleFaq(open: array<bool>, k: nat)
    requires k < open.Length
    modifies open
    ensures open[..] == Toggled(old(open[..]), k)
  {
    var isExpanded := open[k];
    for i := 0 to open.Length
      invariant forall j | 0 <= j < i :: !open[j]
      invariant forall j | i <= j < open.Length :: open[j] == old(open[j])
    {
      open[i] := false;
    }
    if !isExpanded {
      open[k] := true;
    }
  }
}

=== FILE: slider.dfy ===
/** The media slider and the fullscreen lightbox of the first site (assets/js/main.js): index
    arithmetic with wrap-around, the range guards, the dot flags, and the swipe rules. */
module Slider {

  /** JavaScript's `a % n` for a positive `n`: the remainder takes the sign of `a`. */
  function JsRem(a: int, n: int): (r: int)
    requires n > 0
    ensures a >= 0 ==> 0 <= r < n && r == a % n
    ensures a < 0 ==> -n < r <= 0
  {
    if a >= 0 then a % n else -((-a) % n)
  }

  /** The index `changeSlide(direction)` moves to: `(i + direction + n) % n`. */
  function ChangeSlideTarget(current: int, direction: int, count: int): int
    requires count > 0
  {
    JsRem(current + direction + count, count)
  }

  /** For the two directions the arrows, swipes and keys use, the target is in range and is
      the neighbour with wrap-around. */
  lemma ChangeSlideWraps(current: int, direction: int, count: int)
    requires count > 0 && 0 <= current < count && (direction == 1 || direction == -1)
    ensures 0 <= ChangeSlideTarget(current, direction, count) < count
    ensures direction == 1 ==> ChangeSlideTarget(current, direction, count) == if current == count - 1 then 0 else current + 1
    ensures direction == -1 ==> ChangeSlideTarget(current, direction, count) == if current == 0 then count - 1 else current - 1
  {
    var a := current + direction + count;
    if a == 2 * count {
      ModTwice(count);
    } else if a >= count {
      ModOnce(a, count);
    } else {
      ModSmall(a, count);
    }
  }

  lemma ModSmall(a: int, n: int)
    requires 0 <= a < n
    ensures a % n == a
  {
  }

  lemma ModOnce(a: int, n: int)
    requires 0 < n <= a < 2 * n
    ensures a % n == a - n
  {
    ModSmall(a - n, n);
    assert a / n == 1;
  }

  lemma ModTwice(n: int)
    requires n > 0
    ensures (2 * n) % n == 0
  {
  }

  /** The slides and their dots. `active` holds each slide's `active` class and `dots` each
      dot's; a slider exists only with at least one slide (`initSlider` returns before wiring
      anything otherwise), and the dots are either one per slide or absent. */
  class MediaSlider {
    var current: int
    const count: int
    const active: array<bool>
    const dots: array<bool>

    ghost predicate Valid()
      reads this, active, dots
    {
      count == active.Length && count > 0 && active != dots &&
      (dots.Length == count || dots.Length == 0) &&
      0 <= current < count &&
      (forall i | 0 <= i < count :: active[i] <==> i == current)
    }

    /** The slider as `initSlider` leaves it: the first dot active, and the first slide
        active. `initSlider` marks only dot 0; slide 0's `active` class comes with the page's
        markup, which this constructor takes as given. */
    constructor (n: int, withDots: bool)
      requires n > 0
      ensures Valid() && current == 0 && count == n
      ensures forall i | 0 <= i < dots.Length :: dots[i] <==> i == 0
      ensures fresh(active) && fresh(dots)
    {
      count := n;
      current := 0;
      active := new bool[n](i => i == 0);
      dots := new bool[if withDots then n else 0](i => i == 0);
    }

    /** `goToSlide(index)`: an index outside `[0, n)` is ignored; otherwise the old slide is
        deactivated, the new one activated, and every dot is set from `i === index`. */
    method GoToSlide(index: int)
      requires Valid()
      modifies this, active, dots
      ensures Valid()
      ensures current == if 0 <= index < count then index else old(current)
      ensures 0 <= index < count ==> forall i | 0 <= i < dots.Length :: dots[i] <==> i == current
      ensures !(0 <= index < count) ==> unchanged(this, active, dots)
    {
      if index < 0 || index >= count {
        return;
      }
      active[current] := false;
      current := index;
      active[current] := true;
      for i := 0 to dots.Length
        invariant Valid() && current == index
        invariant forall j | 0 <= j < i :: dots[j] <==> j == current
      {
        dots[i] := i == current;
      }
    }

    /** `changeSlide(direction)`: go to `(i + direction + n) % n`. The target is never past the
        last slide; it is negative only for a direction below `-n`, and `goToSlide` then ignores
        it. */
    method ChangeSlide(direction: int)
      requires Valid()
      modifies this, active, dots
      ensures Valid()
      ensures (direction == 1 || direction == -1) ==> current == ChangeSlideTarget(old(current), direction, count)
      ensures ChangeSlideTarget(old(current), direction, count) < count
      ensures 0 <= ChangeSlideTarget(old(current), direction, count) ==>
                current == ChangeSlideTarget(old(current), direction, count) &&
                forall i | 0 <= i < dots.Length :: dots[i] <==> i == current
      ensures ChangeSlideTarget(old(current), direction, count) < 0 ==> unchanged(this, active, dots)
    {
      var target := JsRem(current + direction + count, count);
      if direction == 1 || direction == -1 {
        ChangeSlideWraps(current, direction, count);
      }
      GoToSlide(target);
    }
  }

  datatype Swipe = Next | Previous | Ignored

  /** `handleSwipe()` as a function of the touch coordinates: a move counts only when its
      horizontal extent exceeds 50 and the vertical one; a leftward move (start right of end)
      goes to the next slide, a rightward one to the previous slide. */
  function SwipeDecision(startX: real, endX: real, startY: real, endY: real): (d: Swipe)
    ensures d != Ignored <==> Abs(startX - endX) > 50.0 && Abs(startX - endX) > Abs(startY - endY)
    ensures d == Next ==> startX > endX
    ensures d == Previous ==> startX < endX
  {
    var diffX := startX - endX;
    var diffY := Abs(startY - endY);
    if Abs(diffX) > 50.0 && Abs(diffX) > diffY then (if diffX > 0.0 then Next else Previous)
    else Ignored
  }

  function Abs(x: real): (r: real)
    ensures r >= 0.0 && (r == x || r == -x)
  {
    if x < 0.0 then -x else x
  }

  /** A swipe is symmetric: reversing the gesture reverses the decision. */
  lemma SwipeReversed(startX: real, endX: real, startY: real, endY: real)
    ensures SwipeDecision(endX, startX, endY, startY) ==
              match SwipeDecision(startX, endX, startY, endY)
              case Next => Previous
              case Previous => Next
              case Ignored => Ignored
  {
  }

  // ----- Lightbox -----

  /** `lightboxCurrentIndex`, which becomes `NaN` when the item list is empty and the arrows
      compute `x % 0`. */
  datatype Index = At(i: int) | NotANumber

  /** `lightboxPrev()`'s target: `(i - 1 + n) % n`. */
  function PrevIndex(current: Index, count: int): (r: Index)
    requires count >= 0
    ensures count == 0 || current.NotANumber? <==> r.NotANumber?
  {
    match current
    case NotANumber => NotANumber
    case At(i) => if count == 0 then NotANumber else At(JsRem(i - 1 + count, count))
  }

  /** `lightboxNext()`'s target: `(i + 1) % n`. */
  function NextIndex(current: Index, count: int): (r: Index)
    requires count >= 0
    ensures count == 0 || current.NotANumber? <==> r.NotANumber?
  {
    match current
    case NotANumber => NotANumber
    case At(i) => if count == 0 then NotANumber else At(JsRem(i + 1, count))
  }

  /** From any non-negative index (every index the page assigns is one) both arrows land in
      range, with wrap-around at both ends, and each undoes the other. */
  lemma LightboxArrowsWrap(i: int, count: int)
    requires count > 0 && i >= 0
    ensures var p := PrevIndex(At(i), count); p.At? && 0 <= p.i < count
    ensures var n := NextIndex(At(i), count); n.At? && 0 <= n.i < count
    ensures i < count ==> NextIndex(PrevIndex(At(i), count), count) == At(i)
    ensures i < count ==> PrevIndex(NextIndex(At(i), count), count) == At(i)
    ensures NextIndex(At(count - 1), count) == At(0) && PrevIndex(At(0), count) == At(count - 1)
  {
    if i < count {
      var p := if i == 0 then count - 1 else i - 1;
      var n := if i == count - 1 then 0 else i + 1;
      ArrowSteps(i, count);
      ArrowSteps(p, count);
      ArrowSteps(n, count);
    }
    ArrowSteps(count - 1, count);
    ArrowSteps(0, count);
  }

  /** One arrow step from an index in range. */
  lemma ArrowSteps(i: int, count: int)
    requires 0 <= i < count
    ensures PrevIndex(At(i), count) == At(if i == 0 then count - 1 else i - 1)
    ensures NextIndex(At(i), count) == At(if i == count - 1 then 0 else i + 1)
  {
    if i == 0 {
      ModSmall(count - 1, count);
    } else {
      ModOnce(i - 1 + count, count);
    }
    if i == count - 1 {
      assert i + 1 == count;
      ModTwice(count);
      assert count % count == 0 by { assert count / count == 1; }
    } else {
      ModSmall(i + 1, count);
    }
  }

  /** The touch-gesture variables the lightbox's handlers share: where the touch started and
      whether it has been marked as a swipe. */
  datatype Touch = Touch(startX: real, startY: real, swiping: bool)

  /** What the lightbox shows: `lightboxCurrentIndex`, the arrows' display (`navVisible`), the
      `show-controls` class (`controlsShown`), the `active` class (`open`) and the touch state. */
  datatype View = View(current: Index, navVisible: bool, controlsShown: bool, open: bool, touch: Touch)

  /** `showLightboxMedia(index)`: an index outside `[0, n)` is ignored. A `NaN` index passes
      both comparisons, is stored, and then reading `item.type` of `undefined` throws (the
      second component). Otherwise the item is shown, the arrows are shown exactly when there
      is more than one item, and the controls are hidden. */
  function ShowMedia(v: View, index: Index, count: int): (r: (View, bool))
    ensures r.1 <==> index.NotANumber?
    ensures r.0.open == v.open && r.0.touch == v.touch
    ensures index.NotANumber? ==> r.0 == v.(current := NotANumber)
    ensures index.At? && !(0 <= index.i < count) ==> r.0 == v
    ensures index.At? && 0 <= index.i < count ==>
              r.0.current == index && (r.0.navVisible <==> count > 1) && !r.0.controlsShown
  {
    match index
    case NotANumber => (v.(current := NotANumber), true)
    case At(i) =>
      if i < 0 || i >= count then (v, false)
      else (v.(current := index, navVisible := count > 1, controlsShown := false), false)
  }

  /** Moving by one with the arrows from an index in range never throws, keeps the lightbox
      open or closed as it was, lands in range and hides the controls. */
  lemma ArrowMoveShows(v: View, count: int, forward: bool)
    requires v.current.At? && 0 <= v.current.i < count
    ensures var target := if forward then NextIndex(v.current, count) else PrevIndex(v.current, count);
      var (w, threw) := ShowMedia(v, target, count);
      !threw && w.current.At? && 0 <= w.current.i < count && w.open == v.open && !w.controlsShown &&
      (w.navVisible <==> count > 1)
  {
    LightboxArrowsWrap(v.current.i, count);
  }

  /** `handleTouchEnd` in the lightbox: it acts only when the move was marked as a swipe, its
      horizontal extent exceeds 30 and the vertical one; rightward goes back, leftward on. */
  function LightboxSwipe(isSwiping: bool, startX: real, endX: real, startY: real, endY: real): (d: Swipe)
    ensures d != Ignored <==> isSwiping && Abs(endX - startX) > 30.0 && Abs(endX - startX) > Abs(endY - startY)
    ensures d == Previous ==> endX > startX
    ensures d == Next ==> endX < startX
  {
    var diffX := endX - startX;
    var diffY := Abs(endY - startY);
    if isSwiping && Abs(diffX) > 30.0 && Abs(diffX) > diffY then (if diffX > 0.0 then Previous else Next)
    else Ignored
  }

  /** `handleTouchMove`: the gesture becomes a swipe once it is mostly horizontal and longer
      than 10; it never turns a swipe back off. */
  function TouchMoveSwiping(isSwiping: bool, startX: real, x: real, startY: real, y: real): (r: bool)
    ensures r <==> isSwiping || (Abs(x - startX) > Abs(y - startY) && Abs(x - startX) > 10.0)
  {
    if Abs(x - startX) > Abs(y - startY) && Abs(x - startX) > 10.0 then true else isSwiping
  }

  /** A key the lightbox's `keydown` handler tells apart. */
  datatype Key = Escape | ArrowLeft | ArrowRight | OtherKey

  /** The lightbox state `initLightbox` keeps in its closure and in the lightbox's classes.
      `count` is the number of media items collected at start-up. */
  class Lightbox {
    var current: Index
    var navVisible: bool
    var controlsShown: bool
    var open: bool
    var touch: Touch
    const count: int

    function State(): View
      reads this
    {
      View(current, navVisible, controlsShown, open, touch)
    }

    /** `lightboxCurrentIndex = 0`, the arrows and controls hidden, the lightbox closed, and
        the touch variables at zero. */
    constructor (n: int)
      requires n >= 0
      ensures count == n && State() == View(At(0), false, false, false, Touch(0.0, 0.0, false))
    {
      count := n;
      current := At(0);
      navVisible := false;
      controlsShown := false;
      open := false;
      touch := Touch(0.0, 0.0, false);
    }

    /** `showLightboxMedia(index)`; `threw` reports the `NaN` case's TypeError. */
    method ShowLightboxMedia(index: Index) returns (threw: bool)
      modifies this
      ensures (State(), threw) == ShowMedia(old(State()), index, count)
    {
      match index {
        case NotANumber =>
          current := NotANumber;
          return true;
        case At(i) =>
          if i < 0 || i >= count {
            return false;
          }
          current := index;
          navVisible := count > 1;
          controlsShown := false;
          return false;
      }
    }

    /** `lightboxPrev()`: show `(i - 1 + n) % n`. */
    method LightboxPrev() returns (threw: bool)
      requires count >= 0
      modifies this
      ensures (State(), threw) == ShowMedia(old(State()), PrevIndex(old(current), count), count)
      ensures old(current).At? && old(current).i >= 0 && count > 0 ==>
                !threw && current == PrevIndex(old(current), count) && 0 <= current.i < count
      ensures count == 0 && old(current).At? ==> threw && current == NotANumber
    {
      var target := PrevIndex(current, count);
      if current.At? && current.i >= 0 && count > 0 {
        LightboxArrowsWrap(current.i, count);
      }
      threw := ShowLightboxMedia(target);
    }

    /** `lightboxNext()`: show `(i + 1) % n`. */
    method LightboxNext() returns (threw: bool)
      requires count >= 0
      modifies this
      ensures (State(), threw) == ShowMedia(old(State()), NextIndex(old(current), count), count)
      ensures old(current).At? && old(current).i >= 0 && count > 0 ==>
                !threw && current == NextIndex(old(current), count) && 0 <= current.i < count
      ensures count == 0 && old(current).At? ==> threw && current == NotANumber
    {
      var target := NextIndex(current, count);
      if current.At? && current.i >= 0 && count > 0 {
        LightboxArrowsWrap(current.i, count);
      }
      threw := ShowLightboxMedia(target);
    }

    /** A click on slide `slideIndex`'s media: the index is stored, shown, the lightbox opened
        and the controls hidden. Slides without an image or video are not in the item list, so
        the stored index can lie past its end; `showLightboxMedia` then ignores it, but the
        index stays and the controls are hidden all the same. */
    method Open(slideIndex: nat)
      modifies this
      ensures State() == ShowMedia(old(State()).(current := At(slideIndex)), At(slideIndex), count).0
                           .(open := true, controlsShown := false)
      ensures current == At(slideIndex) && open && !controlsShown
      ensures slideIndex < count ==> (navVisible <==> count > 1)
      ensures slideIndex >= count ==> navVisible == old(navVisible)
    {
      current := At(slideIndex);
      var _ := ShowLightboxMedia(current);
      open := true;
      controlsShown := false;
    }

    /** A click on the previous (`forward` false) or next arrow button: the move, then the
        controls are shown. When the move throws, the handler stops before that. */
    method ArrowClick(forward: bool) returns (threw: bool)
      requires count >= 0
      modifies this
      ensures var target := if forward then NextIndex(old(current), count) else PrevIndex(old(current), count);
        var (v, t) := ShowMedia(old(State()), target, count);
        threw == t && State() == if t then v else v.(controlsShown := true)
    {
      if forward {
        threw := LightboxNext();
      } else {
        threw := LightboxPrev();
      }
      if !threw {
        controlsShown := true;
      }
    }

    /** `closeLightbox()`: the lightbox and its controls are hidden; the index stays. */
    method Close()
      modifies this
      ensures State() == old(State()).(open := false, controlsShown := false)
    {
      open := false;
      controlsShown := false;
    }

    /** A click on the shown media or the empty content area toggles the controls. */
    method ToggleControls()
      modifies this
      ensures State() == old(State()).(controlsShown := !old(controlsShown))
    {
      controlsShown := !controlsShown;
    }

    /** The `keydown` handler: nothing while the lightbox is closed; Escape closes it and the
        left and right arrows move back and on. */
    method KeyDown(key: Key) returns (threw: bool)
      requires count >= 0
      modifies this
      ensures !old(open) || key == OtherKey ==> !threw && State() == old(State())
      ensures old(open) && key == Escape ==> !threw && State() == old(State()).(open := false, controlsShown := false)
      ensures old(open) && key == ArrowLeft ==>
                (State(), threw) == ShowMedia(old(State()), PrevIndex(old(current), count), count)
      ensures old(open) && key == ArrowRight ==>
                (State(), threw) == ShowMedia(old(State()), NextIndex(old(current), count), count)
    {
      threw := false;
      if !open {
        return;
      }
      match key {
        case Escape => Close();
        case ArrowLeft => threw := LightboxPrev();
        case ArrowRight => threw := LightboxNext();
        case OtherKey =>
      }
    }

    /** `handleTouchStart`: while open, record where the touch starts and clear the swipe. */
    method TouchStart(x: real, y: real)
      modifies this
      ensures State() == if old(open) then old(State()).(touch := Touch(x, y, false)) else old(State())
    {
      if open {
        touch := Touch(x, y, false);
      }
    }

    /** `handleTouchMove`: while open, mark the gesture as a swipe once it qualifies. */
    method TouchMove(x: real, y: real)
      modifies this
      ensures State() == if old(open)
        then old(State()).(touch := old(touch).(swiping := TouchMoveSwiping(old(touch).swiping, old(touch).startX, x, old(touch).startY, y)))
        else old(State())
    {
      if open {
        touch := touch.(swiping := TouchMoveSwiping(touch.swiping, touch.startX, x, touch.startY, y));
      }
    }

    /** `handleTouchEnd`: while open, a qualifying swipe moves back or on, and the swipe flag is
        cleared, unless the move threw first. */
    method TouchEnd(x: real, y: real) returns (threw: bool)
      requires count >= 0
      modifies this
      ensures var d := LightboxSwipe(old(touch).swiping, old(touch).startX, x, old(touch).startY, y);
        var (v, t) :=
          if d == Previous then ShowMedia(old(State()), PrevIndex(old(current), count), count)
          else if d == Next then ShowMedia(old(State()), NextIndex(old(current), count), count)
          else (old(State()), false);
        if !old(open) then !threw && State() == old(State())
        else threw == t && State() == if t then v else v.(touch := v.touch.(swiping := false))
    {
      threw := false;
      if !open {
        return;
      }
      var d := LightboxSwipe(touch.swiping, touch.startX, x, touch.startY, y);
      if d == Previous {
        threw := LightboxPrev();
      } else if d == Next {
        threw := LightboxNext();
      }
      if !threw {
        touch := touch.(swiping := false);
      }
    }
  }

  /** Every gesture the slider accepts, the lightbox accepts too once it was marked as a swipe
      (its threshold is lower), and both read it the same way: leftward is next. */
  lemma SliderSwipeIsLightboxSwipe(startX: real, endX: real, startY: real, endY: real)
    requires SwipeDecision(startX, endX, startY, endY) != Ignored
    ensures LightboxSwipe(true, startX, endX, startY, endY) == SwipeDecision(startX, endX, startY, endY)
  {
  }
}

=== FILE: storage.dfy ===
/** The browser's `localStorage` and the site's prefixed helper around it
    (`Utils.storage` in furkan-new-site/js/main.js). */
module Storage {
  import opened Wrappers

  /** The contents of `localStorage`, and whether the browser lets the page use it
      (when it does not, every call throws). */
  datatype StorageArea = StorageArea(items: map<string, string>, available: bool)

  /** What `getItem` does: throw, return `null`, or return the stored string. */
  datatype Lookup = Unavailable | Absent | Present(value: string)

  function GetItem(a: StorageArea, key: string): (r: Lookup)
    ensures r.Present? <==> a.available && key in a.items
    ensures r.Present? ==> r.value == a.items[key]
    ensures r == Unavailable <==> !a.available
  {
    if !a.available then Unavailable
    else if key in a.items then Present(a.items[key])
    else Absent
  }

  /** `setItem`: stores the value when storage is usable; otherwise it throws and nothing changes. */
  function SetItem(a: StorageArea, key: string, value: string): (r: StorageArea)
    ensures r.available == a.available
    ensures a.available ==> GetItem(r, key) == Present(value)
    ensures forall k | k != key :: GetItem(r, k) == GetItem(a, k)
  {
    if a.available then a.(items := a.items[key := value]) else a
  }

  /** `removeItem`. */
  function RemoveItem(a: StorageArea, key: string): (r: StorageArea)
    ensures r.available == a.available
    ensures a.available ==> GetItem(r, key) == Absent
    ensures forall k | k != key :: GetItem(r, k) == GetItem(a, k)
  {
    if a.available then a.(items := a.items - {key}) else a
  }

  /** The page's one `localStorage` object, shared by every manager that persists something. */
  class LocalStorage {
    var items: map<string, string>
    var available: bool

    function Area(): StorageArea
      reads this
    {
      StorageArea(items, available)
    }

    constructor (initial: StorageArea)
      ensures Area() == initial
    {
      items := initial.items;
      available := initial.available;
    }

    /** `localStorage.setItem(key, value)`; `ok` is false where the source's call throws. */
    method Put(key: string, value: string) returns (ok: bool)
      modifies this
      ensures Area() == SetItem(old(Area()), key, value)
      ensures ok == available
    {
      ok := available;
      if available {
        items := items[key := value];
      }
    }

    /** `localStorage.removeItem(key)`. */
    method Delete(key: string)
      modifies this
      ensures Area() == RemoveItem(old(Area()), key)
    {
      if available {
        items := items - {key};
      }
    }
  }

  // ----- Utils.storage: JSON values under keys prefixed with "furkan_" -----

  const KeyPrefix: string := "furkan_"

  /** `JSON.stringify` and `JSON.parse` for the values one caller stores; `decode`
      answers `None` where `JSON.parse` throws. */
  datatype Codec<!V> = Codec(encode: V -> string, decode: string -> Option<V>)

  /** `v` survives a trip through storage: it parses back to itself and its text is not
      the empty string (which `get` would treat as missing). */
  ghost predicate RoundTrips<V>(codec: Codec<V>, v: V) {
    codec.decode(codec.encode(v)) == Some(v) && codec.encode(v) != ""
  }

  function StorageKey(key: string): (k: string)
    ensures |k| == |KeyPrefix| + |key| && k[..|KeyPrefix|] == KeyPrefix && k[|KeyPrefix|..] == key
  {
    KeyPrefix + key
  }

  /** `Utils.storage.get(key, defaultValue)`: the parsed value stored under the prefixed key,
      or `defaultValue` when it is absent, empty, unparsable or storage is unusable. */
  function Get<V>(a: StorageArea, codec: Codec<V>, key: string, defaultValue: V): V {
    match GetItem(a, StorageKey(key))
    case Present(text) =>
      if text == "" then defaultValue
      else (match codec.decode(text)
            case Some(v) => v
            case None => defaultValue)
    case _ => defaultValue
  }

  /** `Utils.storage.set(key, value)`: the serialised value under the prefixed key. */
  function Set<V>(a: StorageArea, codec: Codec<V>, key: string, value: V): StorageArea {
    SetItem(a, StorageKey(key), codec.encode(value))
  }

  /** `Utils.storage.remove(key)`. */
  function Remove(a: StorageArea, key: string): StorageArea {
    RemoveItem(a, StorageKey(key))
  }

  /** Distinct keys never share a storage slot. */
  lemma StorageKeyInjective(k1: string, k2: string)
    requires k1 != k2
    ensures StorageKey(k1) != StorageKey(k2)
  {
    assert StorageKey(k1)[|KeyPrefix|..] == k1;
    assert StorageKey(k2)[|KeyPrefix|..] == k2;
  }

  /** What `set` wrote, `get` reads back, when storage is usable and the value round-trips. */
  lemma GetAfterSet<V>(a: StorageArea, codec: Codec<V>, key: string, value: V, defaultValue: V)
    requires a.available && RoundTrips(codec, value)
    ensures Get(Set(a, codec, key, value), codec, key, defaultValue) == value
  {
  }

  /** `set` under one key leaves every other key's `get` as it was. */
  lemma GetAfterSetOther<V>(a: StorageArea, codec: Codec<V>, key: string, other: string, value: V, defaultValue: V)
    requires key != other
    ensures Get(Set(a, codec, key, value), codec, other, defaultValue) == Get(a, codec, other, defaultValue)
  {
    StorageKeyInjective(key, other);
  }

  /** After `remove`, `get` answers the default. */
  lemma GetAfterRemove<V>(a: StorageArea, codec: Codec<V>, key: string, defaultValue: V)
    ensures Get(Remove(a, key), codec, key, defaultValue) == defaultValue
  {
  }

  /** Without usable storage, or with nothing stored under `furkan_<key>`, `get` answers the default. */
  lemma GetDefault<V>(a: StorageArea, codec: Codec<V>, key: string, defaultValue: V)
    requires !a.available || StorageKey(key) !in a.items
    ensures Get(a, codec, key, defaultValue) == defaultValue
  {
  }

  /** `Utils.storage.set` acting on the page's `localStorage`. */
  method StorageSet<V>(ls: LocalStorage, codec: Codec<V>, key: string, value: V)
    modifies ls
    ensures ls.Area() == Set(old(ls.Area()), codec, key, value)
  {
    var _ := ls.Put(StorageKey(key), codec.encode(value));
  }

  /** `Utils.storage.remove` acting on the page's `localStorage`. */
  method StorageRemove(ls: LocalStorage, key: string)
    modifies ls
    ensures ls.Area() == Remove(old(ls.Area()), key)
  {
    ls.Delete(StorageKey(key));
  }
}

=== FILE: text.dfy ===
/** The string helpers of JavaScript that the site scripts lean on: `startsWith`,
    `includes`, `split`/`join`, ASCII `toLowerCase`, `String(n)` for non-negative
    integers and `padStart`. */
module Text {

  predicate StartsWith(s: string, prefix: string) {
    |prefix| <= |s| && s[..|prefix|] == prefix
  }

  /** `s.includes(sub)`: `sub` occurs somewhere in `s`. */
  predicate Contains(s: string, sub: string)
    decreases |s|
  {
    StartsWith(s, sub) || (|s| > 0 && Contains(s[1..], sub))
  }

  /** `sub` occurs in `s` starting at offset `k`. */
  predicate OccursAt(s: string, sub: string, k: nat) {
    k + |sub| <= |s| && s[k..k + |sub|] == sub
  }

  /** An occurrence of `sub` found by `Contains` really is one, at some offset. */
  lemma {:induction false} ContainsWitness(s: string, sub: string)
    requires Contains(s, sub)
    ensures exists k: nat :: OccursAt(s, sub, k)
    decreases |s|
  {
    if StartsWith(s, sub) {
      assert OccursAt(s, sub, 0);
    } else {
      ContainsWitness(s[1..], sub);
      var k: nat :| OccursAt(s[1..], sub, k);
      assert s[k + 1..k + 1 + |sub|] == s[1..][k..k + |sub|];
      assert OccursAt(s, sub, k + 1);
    }
  }

  /** Every occurrence is found by `Contains`: the two directions together make it `includes`. */
  lemma {:induction false} ContainsAt(s: string, sub: string, k: nat)
    requires OccursAt(s, sub, k)
    ensures Contains(s, sub)
    decreases k
  {
    if k > 0 {
      assert s[1..][k - 1..k - 1 + |sub|] == s[k..k + |sub|];
      ContainsAt(s[1..], sub, k - 1);
    } else {
      assert s[..|sub|] == s[0..0 + |sub|];
    }
  }

  /** A string that lacks the first character of `sub` does not contain `sub`. */
  lemma {:induction false} MissingFirstChar(s: string, sub: string)
    requires |sub| > 0 && sub[0] !in s
    ensures !Contains(s, sub)
    decreases |s|
  {
    if |s| > 0 {
      assert s[0] != sub[0];
      MissingFirstChar(s[1..], sub);
    }
  }

  /** `s.split(sep)` for a one-character separator: the pieces between separators, in order,
      including empty ones; there is always at least one piece. */
  function Split(s: string, sep: char): (parts: seq<string>)
    ensures |parts| >= 1
    ensures forall i | 0 <= i < |parts| :: sep !in parts[i]
    decreases |s|
  {
    if |s| == 0 then [""]
    else
      var rest := Split(s[1..], sep);
      if s[0] == sep then [""] + rest
      else [[s[0]] + rest[0]] + rest[1..]
  }

  /** The first piece of a split runs up to the first separator, or to the end of the string
      when there is none. */
  lemma {:induction false} SplitFirstMaximal(s: string, sep: char)
    ensures var first := Split(s, sep)[0];
      |first| <= |s| && s[..|first|] == first && (|first| == |s| || s[|first|] == sep)
    decreases |s|
  {
    if |s| > 0 {
      SplitFirstMaximal(s[1..], sep);
    }
  }

  /** `parts.join(sep)`. */
  function Join(parts: seq<string>, sep: char): string
    decreases |parts|
  {
    if |parts| == 0 then ""
    else if |parts| == 1 then parts[0]
    else parts[0] + [sep] + Join(parts[1..], sep)
  }

  /** Splitting loses nothing: joining the pieces again gives back the original string. */
  lemma {:induction false} JoinSplit(s: string, sep: char)
    ensures Join(Split(s, sep), sep) == s
    decreases |s|
  {
    if |s| > 0 {
      var rest := Split(s[1..], sep);
      JoinSplit(s[1..], sep);
      if s[0] == sep {
        assert Split(s, sep) == [""] + rest;
        assert ([""] + rest)[1..] == rest;
        assert s == [sep] + s[1..];
      } else {
        var parts := Split(s, sep);
        assert parts == [[s[0]] + rest[0]] + rest[1..];
        if |rest| == 1 {
          assert s == [s[0]] + s[1..];
        } else {
          assert parts[1..] == rest[1..];
          assert Join(rest, sep) == rest[0] + [sep] + Join(rest[1..], sep);
          assert s == [s[0]] + s[1..];
        }
      }
    }
  }

  function LowerChar(c: char): char {
    if 'A' <= c <= 'Z' then (c as int + 32) as char else c
  }

  /** `toLowerCase()` restricted to ASCII letters. */
  function ToLower(s: string): (r: string)
    ensures |r| == |s|
    ensures forall i | 0 <= i < |s| :: r[i] == LowerChar(s[i])
  {
    seq(|s|, i requires 0 <= i < |s| => LowerChar(s[i]))
  }

  function DigitChar(d: nat): char
    requires d < 10
  {
    ('0' as int + d) as char
  }

  predicate IsDigit(c: char) {
    '0' <= c <= '9'
  }

  predicate AllDigits(s: string) {
    forall i | 0 <= i < |s| :: IsDigit(s[i])
  }

  /** `String(n)` for a non-negative integer: its decimal digits, no leading zeros. */
  function DecimalString(n: nat): (r: string)
    ensures |r| >= 1 && AllDigits(r)
    ensures n < 10 <==> |r| == 1
    decreases n
  {
    if n < 10 then [DigitChar(n)] else DecimalString(n / 10) + [DigitChar(n % 10)]
  }

  /** The value of a string of decimal digits. */
  function DecimalValue(s: string): nat
    requires AllDigits(s)
    decreases |s|
  {
    if |s| == 0 then 0 else 10 * DecimalValue(s[..|s| - 1]) + (s[|s| - 1] as int - '0' as int)
  }

  /** Reading back what `DecimalString` wrote gives the number again. */
  lemma {:induction false} DecimalRoundTrip(n: nat)
    ensures DecimalValue(DecimalString(n)) == n
    decreases n
  {
    if n >= 10 {
      DecimalRoundTrip(n / 10);
      var r := DecimalString(n);
      assert r[..|r| - 1] == DecimalString(n / 10);
    }
  }

  /** `s.padStart(width, c)`. */
  function PadStart(s: string, width: nat, c: char): (r: string)
    ensures |r| == if |s| >= width then |s| else width
    ensures r[|r| - |s|..] == s
    ensures forall i | 0 <= i < |r| - |s| :: r[i] == c
  {
    if |s| >= width then s else seq(width - |s|, _ => c) + s
  }
}

=== FILE: wrappers.dfy ===
/** Option and Result, the failure-carrying values the model uses for JavaScript's
    `null`/`undefined` results and thrown errors. */
module Wrappers {

  datatype Option<+T> = None | Some(value: T) {
    function GetOr(default: T): T {
      match this
      case Some(v) => v
      case None => default
    }
  }

  datatype Result<+R, +E> = Ok(value: R) | Err(error: E)
}
